=== FILE: README.md ===
# Kafka topics message browser: the search engine, modelled in Dafny

The browser answers one HTTP request by searching Kafka topics for messages
whose text contains a search string. This project models the decision-making
core of that search:

- **Request resolution** (`RequestParams`, request_handler.py):
  - merging the request's form fields, query arguments and JSON body;
  - normalising every parameter (strip, lower-case, defaults);
  - building the JSON and Avro topic sets from explicit lists, from configured names the request mentions, and from `otherTopic` routing;
  - the logger's serialisation of the params;
  - validation before any broker object exists.
- **Orchestration** (`RequestHandler`, request_handler.py):
  - one reader per request, then every JSON topic, then the AvroClient and every Avro topic, then the close;
  - each topic's list or error string goes under its own `JSON_TOPIC_`/`AVRO_TOPIC_` key, and a close failure goes under `ERROR`.
  - Python iterates over the topic sets in an unspecified order, so the loops pick topics with `:|`. The response is characterised whatever the order.
  - The calls made on the broker and the registry are returned as a trace.
- **Partition scan** (`KafkaClient`, kafka_client.py):
  - `search_for_msgs` is a fold over each partition's finite sequence of poll outcomes (None, end-of-partition, another error, a message);
  - it uses the JSON and Avro parsers, the lower-cased substring predicate, prepending, and the separator block;
  - errors are handled in two tiers: an `ErrorHandler` aborts the topic, anything else skips the message.
  - A reference semantics (`Discover`, `Layout`, `Reported`) says what a scan reports, independently of the fold.
- **Consumer settings** (`KafkaManager`, kafka_manager.py): `__build_consumer_dict`, with its asymmetric boolean rules and its missing-key wrapping, and the wrapping in `initialize_kafka_consumer`.
- **Python runtime** (`PyText`, `PyValues`): `str.strip`, `str.lower`, the `in` substring test, `int()`, truthiness, `dict.get`, subscripting, and the texts of the built-in exceptions the code lets through.

Collaborators outside the model are inputs. These are:
- `json.loads`, `bytes.decode`, `str(data)`, the Avro deserializer, `datetime.fromisoformat` with `pytz` localisation;
- the Consumer constructor, `list_topics`, `close`, the registry client and per-topic deserializer creation.

Each of these is a value or the text of the exception it raises.

Where the project's documented behaviour and its code differ, the model follows the code:

- With the delimiter flag, every match is followed by its own block of three separator lines. The block is added after the oldest match as well, so two matches give eight entries: `[M2, S, S, S, M1, S, S, S]` (`KafkaClient.TwoMatchesDelimited`).
- A `notBefore` other than `false` or blank is not inert. Either it fails to parse, or it becomes a `datetime` that `json.dumps` in `RequestLogger.log_request` cannot serialise. Either way the request fails before the search (`RequestParams.NotBeforeNeverSearches`).
- With metadata requested, the JSON parser's fallback indexes the message object. Its TypeError is swallowed, so the message is dropped (`KafkaClient.JsonMetadataFailureDrops`). What `msg.another_example()` yields is an input of the model. When it raises, as it does on a plain confluent-kafka message, a JSON message is dropped (`KafkaClient.JsonMetadataNeedsAnotherExample`) and an Avro record is kept with an `error` entry (`KafkaClient.AvroMetadataFailureKept`).
- An Avro topic without a configured schema gets the value of `list().insert(...)`, which is None (`RequestHandler.UnconfiguredAvroTopicIsNone`).
- An AvroClient failure raises out of the search. It discards the JSON results and skips the close.
- An `otherTopic` of blanks normalises to `""`, which is not `none`. So the empty topic name joins the JSON set and the request passes the topic check (`RequestParams.BlankOtherTopicSearched`).

Other files the core uses are not part of this model:
- `error_handler.py`: an `ErrorHandler`'s `str()` is taken to be its message.
- `default_constants.py`: the three defaults are fields of `RequestParams.Config`.
- `config_handler.py`: the configured topic names and the connection details are inputs.

## Model

| member | source | states |
|---|---|---|
| PyText.Strip | request_handler.py:103-126 | `str.strip()`: the result has no whitespace at either end, and is empty exactly when the text is all whitespace |
| PyText.StripPadded | request_handler.py:103-126 | stripping removes exactly the whitespace padding around a text with unpadded ends |
| PyText.StripIdempotent | request_handler.py:103-126 | stripping twice is stripping once |
| PyText.LowerOfStripped | request_handler.py:103-126 | `.strip().lower()` gives lower-case, unpadded text, empty exactly for blank input |
| PyText.ContainsIff | kafka-topics-message-browser/kafka_client.py:121 | the `in` test on strings holds exactly when the needle occurs at some offset of the haystack |
| PyText.ParseIntText | kafka_manager.py:27 | `int(str(n)) == n` |
| PyText.ParseIntPadded | kafka_manager.py:27 | `int()` accepts whitespace padding around the digits |
| PyText.ReprReadBack | kafka_manager.py:38-39 | `repr()` of a string (which is `str()` of a KeyError) loses nothing: reading the escapes between its quotes back gives the string |
| PyText.ReprPlain | kafka_manager.py:38-39 | a key needing no escape is written between single quotes |
| PyText.ReprApostrophe | kafka_manager.py:38-39 | a key holding a single quote and no double quote is written between double quotes, unescaped |
| PyValues.Describe | kafka_manager.py:38-39 | `str(e)`: an ErrorHandler's or built-in error's own text; a KeyError's key quoted by `repr()`, with the same quote at both ends, and read back to the key |
| PyValues.Normalise | request_handler.py:106-118 | `v.strip().lower()` succeeds exactly on strings, giving the stripped text lower-cased, which is lower-case and unpadded; any other value raises the AttributeError for `strip` |
| PyValues.Subscript | kafka-topics-message-browser/kafka_client.py:133 | `v[k]` succeeds only on a dict holding `k`; a dict without `k` raises `KeyError(k)`, every other value a built-in TypeError (never an ErrorHandler) |
| PyValues.Truncate | kafka_manager.py:27 | `int()` of a float rounds toward zero: the result is within one of the float, on the zero side |
| PyValues.IntOf | request_handler.py:121-123 | `int(v)`: the int itself, 0 or 1 for a bool, the float rounded toward zero, the decimal value of a string that parses; for one that does not, a ValueError `invalid literal for int() with base 10: ` followed by the string's repr() cut to 200 characters (`%.200R`); None, lists and dicts raise a TypeError |
| PyValues.InvalidLiteralQuoted | request_handler.py:121-123 | `int("a'b")` raises `invalid literal for int() with base 10: "a'b"`: the repr() of a text holding `'` is between double quotes |
| KafkaManager.ReadLookups | kafka_manager.py:22-36 | the lookups succeed exactly when every subscripted key exists and every `.get` value is a string of the right kind; each value comes from the key the source reads |
| KafkaManager.BuildConsumerDict | kafka_manager.py:18-39 | success exactly when the configuration is complete; the settings map has exactly the 13 names, servers and SSL paths under the environment, and the offset reset nested under `default.topic.config`; a KeyError from the lookups becomes the ErrorHandler naming that key, quoted, behind the missing-key prefix; any other failure of the lookups escapes unchanged |
| KafkaManager.BooleanSettings | kafka_manager.py:26-36 | `enable.auto.commit` is true exactly when its string lower-cases to `true`; the two other flags are false exactly when theirs lower-case to `false` |
| KafkaManager.InitializeConsumer | kafka_manager.py:10-16 | succeeds exactly when the configuration is complete and the client accepts it, and then the consumer gets exactly the built settings; a settings failure is wrapped as `Error initializing Kafka Consumer: ` + str(e), a client refusal as the prefix + its text |
| KafkaManager.MissingKeyReported | kafka_manager.py:12-39 | any KeyError of the settings literal names a subscripted key missing where it is looked up; the settings report `repr()` of that key behind the missing-key prefix, and the consumer behind both prefixes whatever the client would do |
| KafkaManager.MissingServers | kafka_manager.py:23-39 | a missing `bootstrap.servers` is reported by name behind both prefixes |
| KafkaManager.MissingEnvironment | kafka_manager.py:23-39 | an environment with no brokers is reported as the missing key, as `repr()` writes it |
| KafkaManager.MissingQuotedEnvironment | kafka_manager.py:23-39 | an environment name `o'neil` with no brokers is reported between double quotes, `"o'neil"` |
| KafkaManager.MissingAutoCommit | kafka_manager.py:12-26 | a missing `.get` key fails at `.lower()` as an AttributeError, visible only behind the outer prefix |
| KafkaManager.SessionTimeoutParsed | kafka_manager.py:27 | `session.timeout.ms` is the integer a padded decimal string denotes |
| KafkaClient.JsonMetadata | kafka-topics-message-browser/kafka_client.py:124-131 | the JSON metadata exists exactly when the key decodes, a key starting with `{` also parses as JSON, and `another_example` returns; it then holds exactly `key` (parsed or plain text) and `another_example` |
| KafkaClient.ParseJsonMsg | kafka-topics-message-browser/kafka_client.py:112-136 | only built-in exceptions escape; a decoding failure always fails; a non-None result is a decoded record that matches the search |
| KafkaClient.AvroMetadata | kafka-topics-message-browser/kafka_client.py:148-155 | `key` holds the decoded key whenever it decodes; `another_example` holds its value exactly when both reads work; `error` appears exactly when a read fails, holding `Error extracting metadata: ` and the failure's text |
| KafkaClient.AvroDecode | avro_client.py:28-32 | a deserializer failure becomes an ErrorHandler with the registry-settings prefix |
| KafkaClient.ParseAvroMsg | kafka-topics-message-browser/kafka_client.py:138-158 | an ErrorHandler comes only from a deserializer failure; a non-None result is a decoded record that matches |
| KafkaClient.Classify | kafka-topics-message-browser/kafka_client.py:72-108 | a message aborts the topic exactly on an Avro deserializer failure, with the text behind both prefixes; a kept record is truthy, decoded by the parser for the topic's kind, and matches |
| KafkaClient.ScanPartition | kafka-topics-message-browser/kafka_client.py:68-108 | the poll loop over one partition reports what `Discover` finds, laid out newest first in front of the earlier entries; it hangs when no end-of-partition arrives |
| KafkaClient.ScanPartitions | kafka-topics-message-browser/kafka_client.py:65-110 | the loop over the partitions reports the discoveries of all partitions in order, laid out newest first |
| KafkaClient.SearchForMsgs | kafka-topics-message-browser/kafka_client.py:43-110 | a topic the broker does not list raises the access error before any partition is read; otherwise the result is the reported layout of every partition's discoveries |
| KafkaClient.LayoutAppend | kafka-topics-message-browser/kafka_client.py:81-89 | matches found later come first: the layout of `a + b` is `b`'s layout before `a`'s |
| KafkaClient.LayoutPlain | kafka-topics-message-browser/kafka_client.py:81-83 | without the delimiter flag the list is exactly the matches, newest first |
| KafkaClient.LayoutDelimited | kafka-topics-message-browser/kafka_client.py:83-89 | with delimiter `true` the list has four entries per match; entry `4k` is the k-th newest match and the next three are the separator lines |
| KafkaClient.ScanSize | kafka-topics-message-browser/kafka_client.py:65-110 | a finished scan returns one entry per match, or four with the delimiter flag |
| KafkaClient.AllKept | kafka-topics-message-browser/kafka_client.py:69-96 | a partition whose every message is kept discovers all of them, in polling order |
| KafkaClient.MatchesNewestFirst | kafka-topics-message-browser/kafka_client.py:81-82 | matching messages M1..Mn polled in that order come back as Mn..M1, one entry each |
| KafkaClient.TwoMatchesDelimited | kafka-topics-message-browser/kafka_client.py:81-89 | two matches M1, M2 with the delimiter flag come back as M2, its block, M1, its block |
| KafkaClient.IdlePollsIgnored | kafka-topics-message-browser/kafka_client.py:69-101 | inserting a None poll or a non-EOF error anywhere in a partition's polls changes nothing |
| KafkaClient.EndOfPartitionStops | kafka-topics-message-browser/kafka_client.py:94-96 | nothing polled after an end-of-partition is read |
| KafkaClient.OnlyAvroAborts | kafka-topics-message-browser/kafka_client.py:102-108 | a scan other than Avro never aborts |
| KafkaClient.JsonScanRaisesOnlyOnAccess | kafka-topics-message-browser/kafka_client.py:49-108 | a JSON scan raises exactly when the broker does not list the topic |
| KafkaClient.JsonVerdict | kafka-topics-message-browser/kafka_client.py:112-136 | without metadata a JSON message is kept unchanged exactly when it decodes, matches and is truthy; otherwise it is skipped |
| KafkaClient.JsonMetadataVerdict | kafka-topics-message-browser/kafka_client.py:112-136 | with metadata, a JSON message is kept exactly when it decodes to a matching dict whose metadata can be read, as that dict plus the metadata block; everything else is dropped |
| KafkaClient.AvroMetadataVerdict | kafka-topics-message-browser/kafka_client.py:138-158 | with metadata, an Avro record is kept exactly when it decodes to a matching dict, with its metadata block; a deserializer failure aborts with both prefixes; everything else is dropped |
| KafkaClient.AvroVerdict | kafka-topics-message-browser/kafka_client.py:138-158 | without metadata an Avro record is kept exactly when it matches and is truthy; a deserializer failure aborts with both prefixes |
| KafkaClient.OtherKindFindsNothing | kafka-topics-message-browser/kafka_client.py:75-81 | a message type other than `json` and `avro` finds nothing |
| KafkaClient.JsonMetadataFailureDrops | kafka-topics-message-browser/kafka_client.py:122-133 | with metadata, any metadata failure on a JSON message drops the message |
| KafkaClient.JsonMetadataNeedsAnotherExample | kafka-topics-message-browser/kafka_client.py:131-133 | with metadata, a JSON message whose `another_example()` raises is dropped |
| KafkaClient.AvroMetadataFailureKept | kafka-topics-message-browser/kafka_client.py:148-156 | with metadata, an Avro record whose `another_example()` raises is kept with the key and the error entry |
| RequestParams.Merge | request_handler.py:78-82 | every merged key takes its value from the JSON body, else the args, else the form; a truthy non-dict body raises |
| RequestParams.FromBody | request_handler.py:84-89 | the raw body is used when it decodes to a non-empty dict; an empty dict, list or string raises "Error parsing params" |
| RequestParams.ParseIncoming | request_handler.py:70-91 | a parsed request is never empty; the merge is used when non-empty, the raw body otherwise |
| RequestParams.MergePrecedence | request_handler.py:78-82 | the keys are those of the three sources, and the body overrides the args, which override the form |
| RequestParams.EmptyRequestRefused | request_handler.py:84-89 | "Error parsing params" is raised exactly when the merge is empty and the raw body is an empty container |
| RequestParams.SearchOf | request_handler.py:102-103 | the search string is None exactly when absent or falsy, else the trimmed lower-cased text; it raises exactly for a truthy non-string, with that value's AttributeError |
| RequestParams.Setting | request_handler.py:106-118 | a setting is the request's value, or else the default, trimmed and lower-cased |
| RequestParams.ConvertNotBefore | request_handler.py:212-221 | a notBefore that parses becomes an instant; otherwise an ErrorHandler naming the value and the parser's text |
| RequestParams.NotBeforeOf | request_handler.py:126-129 | notBefore defaults to `false`; it stays text exactly when the normalised value is `false` or blank; any other normalised text goes through `__convert_not_before`; a non-string raises the normalising error |
| RequestParams.ListTopics | request_handler.py:134 | `set()` of a list succeeds exactly when every item is a string, and holds exactly those strings; a list or dict item gives `set()`'s unhashable-type error, whatever hashable items precede it |
| RequestParams.Unhashable | request_handler.py:134 | `set()` of a list raises `unhashable type: '<type>'` exactly when some item is a list or dict, naming the type of the first such item |
| RequestParams.ExplicitTopics | request_handler.py:133-144 | an absent or falsy list gives no topics; a dict gives its keys, a string its characters, a list its items; any other truthy value (a number, `True`) raises `'<type>' object is not iterable` |
| RequestParams.AddMentioned | request_handler.py:137-139 | the loop over the configured names, walked in any order, adds exactly the names found as a key or a string value of the request and keeps what the set held |
| RequestParams.TopicsOf | request_handler.py:131-156 | each topic set is the explicit list, plus the configured names the request mentions, plus `other_topic` when routed to that set |
| RequestParams.ScalarsOf | request_handler.py:100-129 | each scalar parameter is read from its own key with its own default, and any failure comes from one of those reads |
| RequestParams.BuildParams | request_handler.py:93-158 | the params are the scalars with the two topic sets; a scalar failure comes first |
| RequestParams.LogRequest | logger.py:34-38 | the params pass the request log exactly when notBefore is still text |
| RequestParams.Validate | request_handler.py:223-241 | a request passes exactly when it has a non-empty search string and at least one topic; otherwise it gets the matching error |
| RequestParams.Resolve | request_handler.py:55-65 | resolved params have a search string, a topic and no parsed instant, and come from building the parsed request; the first of parsing, building, logging and validation to fail decides the error, and a request that passes all four resolves |
| RequestParams.BlankSearchRejected | request_handler.py:232-237 | a whitespace-only search string becomes `""` and is rejected as missing |
| RequestParams.SearchNormalised | request_handler.py:102-103 | the search string is None exactly when absent or falsy, else lower-case and unpadded |
| RequestParams.DefaultsApplied | request_handler.py:106-126 | an absent environment, metadata flag or delimiter takes its normalised default; an absent notBefore stays `false` |
| RequestParams.OtherTopicDefault | request_handler.py:118 | an absent `otherTopic` is `none` |
| RequestParams.OtherTopicRouted | request_handler.py:151-156 | an `other_topic` other than `none` joins the Avro set when it is a configured Avro topic, the JSON set otherwise |
| RequestParams.NoOtherTopic | request_handler.py:131-152 | with `other_topic` `none`, each set is just its explicit list plus the mentioned configured names |
| RequestParams.BlankOtherTopicSearched | request_handler.py:118-156 | a blank `otherTopic` puts the empty topic name into the JSON set |
| RequestParams.NotBeforeNeverSearches | request_handler.py:126-129 | a notBefore other than `false` or blank always fails the request before the search |
| RequestParams.ValidateRejects | request_handler.py:232-241 | the missing-search error comes exactly for a missing search string, the no-topics error exactly for a search string with no topic |
| RequestHandler.OpenTopics | kafka-topics-message-browser/kafka_client.py:21-34 | the reader opens exactly when the consumer can be built and the topic listing arrives; a consumer failure is reported as `Error initializing KafkaReader(): ` + its text, a listing failure behind both the reader and the listing prefixes |
| RequestHandler.ReaderReportsMissingKey | kafka-topics-message-browser/kafka_client.py:21-34 | a configuration missing a subscripted key stops the reader with the reader's, the consumer's and the missing-key prefixes around `repr()` of the key |
| RequestHandler.JsonAnswer | request_handler.py:174-179 | a JSON topic's slot is exactly its scan's list when the scan returns, and `Error searching topic. ` with the scan's error when it raises; an unlisted topic gets the access error; it hangs exactly when the scan does |
| RequestHandler.AvroAnswer | request_handler.py:188-202 | an Avro topic without a configured schema gets None; a schema the registry rejects gives the load error; otherwise the slot is exactly the scan's list when it returns and `Error searching avro topic.  ` with the scan's error (the access error for an unlisted topic) when it raises |
| RequestHandler.JsonSlotListsMatches | request_handler.py:174-179 | a listed JSON topic whose partitions all reach their end holds every match of its scan, newest first |
| RequestHandler.AvroSlotListsMatches | request_handler.py:188-202 | a listed Avro topic whose schema loads and whose partitions all reach their end holds every match of its scan, newest first |
| RequestHandler.PrefixedKeys | constants.py:39-41 | the `JSON_TOPIC_` and `AVRO_TOPIC_` keys name their topic and never collide with each other or with `ERROR` |
| RequestHandler.KeysInjective | request_handler.py:173-202 | distinct topics get distinct keys |
| RequestHandler.AssembledAnswers | request_handler.py:167-210 | the JSON slots, the Avro slots and the close entry make up a response with exactly one slot per topic |
| RequestHandler.CloseFailureKeepsSlots | request_handler.py:205-208 | a close failure only adds the `ERROR` entry |
| RequestHandler.SearchJsonTopics | request_handler.py:173-179 | every JSON topic is scanned and gets its own slot whatever other topics did; only requested JSON topics are scanned; the loop never raises and hangs exactly when some topic's scan does |
| RequestHandler.AvroTopicStep | request_handler.py:189-197 | a topic without a configured schema is neither loaded nor scanned; a topic whose deserializer fails is loaded but not scanned |
| RequestHandler.AvroTopicsLoop | request_handler.py:188-202 | every Avro topic gets its own slot; the loop hangs exactly when some topic's scan does; only configured topics are loaded, and only those whose deserializer loads are scanned |
| RequestHandler.SearchAvroTopics | request_handler.py:182-202 | the AvroClient is built only for a non-empty Avro set, and its failure raises with no topic handled; otherwise every Avro topic gets its own slot |
| RequestHandler.SearchTopics | request_handler.py:173-210 | a hanging JSON scan hangs the request; otherwise an AvroClient failure raises; a returned response holds one slot per topic plus `ERROR` exactly on a close failure; the close is the last call and happens only on return; JSON scans are of requested JSON topics only; every JSON scan comes before the AvroClient is opened, the AvroClient before any deserializer is loaded, and each Avro scan right after its topic's deserializer |
| RequestHandler.BeginSearch | request_handler.py:160-210 | the reader is opened first and never again; if it cannot be opened the search raises its error and nothing else is called; otherwise the search runs over the broker's topic listing, its calls in the order the search makes them |
| RequestHandler.ProcessRequest | request_handler.py:48-68 | a request that fails to parse, build, log or validate raises that error with no broker call made; otherwise the search runs with the resolved params |
| RequestHandler.UnconfiguredAvroTopicIsNone | request_handler.py:189-193 | an Avro topic without a configured schema holds None |
| RequestHandler.MissingJsonTopicIsolated | request_handler.py:174-179 | an unlisted JSON topic holds its access error and every other topic still has its slot |
| RequestHandler.DeserializerFailureIsolated | request_handler.py:194-201 | a topic whose deserializer cannot be created holds the load error behind the avro search prefix |
| RequestHandler.AvroDecodeFailureFillsSlot | request_handler.py:194-201 | a deserializer failure on a message replaces that topic's whole list with one error text |

## Left out

- Flask, app startup, YAML loading (`view.py`, `app.py`, `config_handler.py`): HTTP and file I/O. The request and the configuration are immutable inputs.
- `request.json` as Flask computes it (content-type checks, `400` on bad JSON): `Incoming.json` is the value it yields.
- logger.py beyond the `json.dumps` in `log_request`: handlers, CSV formatting and directory creation are I/O.
- pfx_to_pem_handler.py, avro_schema_registry_client.py and the internals of avro_client.py: certificates, temp files and the registry network client. They appear only as failure texts (`Registry`) and the abstract `Codec.avroDecode`.
- The Consumer's internals:
  - poll is a finite per-partition sequence of outcomes, and running out without an end-of-partition is reported as `Hangs`;
  - the 0.5 s poll timeout, `assign` and `unassign` are not modelled.
- Concrete JSON parsing, `str(data)` rendering, `bytes.decode`, `datetime.fromisoformat` and pytz: uninterpreted inputs.
- `search_count`: only its `int()` conversion is modelled. The value is inert.
- Floats are real numbers: NaN and the infinities, whose `int()` raises, are not representable, and `str()` of a float belongs to the uninterpreted rendering.
- A topic listed both as a JSON and as an Avro topic is scanned twice over the same per-partition poll outcomes (`topics[t]`). The real consumer's second assignment of that topic need not replay the same messages.
- PyText.Lower: ASCII letters only; Python's `str.lower()` applies full Unicode case mapping to both the search string and the rendered record. So a search for `Ä` finds a record containing `ä` in the source, but not in the model; every search over ASCII text behaves alike.
- PyValues.Describe: `repr()` escapes the unprintable characters up to U+00FF as Python does, but writes every character above U+00FF as it is. Python escapes the unprintable ones among them (line and paragraph separators, format characters, unassigned code points) as `\u` or `\U` sequences. A missing key holding such a character is reported differently.
- PyText.ParseInt: no underscores and no non-ASCII digits, which Python's `int()` also accepts.
- RequestParams.ListTopics: a hashable non-string item (None, a bool, a number) inside an explicit topic list fails at build time, with the TypeError the search loop raises later for it (`"JSON_TOPIC_" + topic`, request_handler.py:173-177; `"AVRO_TOPIC_" + topic`, request_handler.py:188-190). In the source it enters the topic set, and the TypeError comes only after every earlier step, which may report something else first:
  - no usable search string: the source raises the missing-search ErrorHandler (request_handler.py:232-237);
  - a `notBefore` that parses: the source raises the datetime serialisation error of the request log (logger.py:38);
  - a reader that cannot be opened, an AvroClient that cannot be created, or a topic scanned earlier that hangs: the source reports that instead;
  - `True` and `1` are one set element in Python; the model never gets that far.
- KafkaClient.SearchForMsgs: the set-up `__retrieve_partition_data` error ("Error retrieving partition data") is left out, because it cannot occur once the topic is listed.
- RequestParams.FromBody: a non-empty raw body that is a list or a string fails in the parse step. It fails with the AttributeError that the first `.get` in `__build_params` raises; nothing observable happens between the two steps.

=== FILE: kafka_client.dfy ===
/**
 * The partition scan of one topic (KafkaReader.search_for_msgs and its two
 * message parsers). The broker is abstracted to, per topic, the sequence
 * of its partitions and, per partition, the finite sequence of outcomes
 * its polls deliver; decoding and rendering are functions handed in.
 */
module KafkaClient {
  import opened PyText
  import opened PyValues

  const AccessErrorPrefix := "Application does not have access to requested topic: "
  const ParseErrorPrefix := "Error parsing message. "
  const AvroDecodeErrorPrefix := "Error deserializing avro message. Check registry settings: "
  const MetadataErrorPrefix := "Error extracting metadata: "
  const MetadataField := "additional_added_metadata"
  const SeparatorRule := "##############################################################"
  const SeparatorTitle := "####################  MESSAGE SEPARATOR  #####################"

  /**
   * A delivered record: its key (None when the producer sent none), its
   * value, and what msg.another_example() returns or raises.
   */
  datatype Message = Message(key: Option<Bytes>, value: Bytes, anotherExample: Attempt<Json>)

  /** What one consumer.poll(.5) yields. */
  datatype PollEvent =
    | NoMessage                 // poll returned None
    | EndOfPartition            // an error message with code _PARTITION_EOF
    | BrokerError(code: int)    // an error message with any other code
    | Delivered(msg: Message)   // a message without error

  /** One partition of a topic and the outcomes its polls deliver, in order. */
  datatype Partition = Partition(id: int, polls: seq<PollEvent>)

  /**
   * The decoding collaborators: json.loads, bytes.decode(), str(data) and
   * the Avro deserializer loaded for a topic.
   */
  datatype Codec = Codec(
    jsonLoads: Bytes -> Attempt<Json>,
    utf8: Bytes -> Attempt<string>,
    render: Json -> string,
    avroDecode: (string, Bytes) -> Attempt<Json>)

  /** The request parameters one scan reads, plus the topic and its message type. */
  datatype Query = Query(
    topic: string, kind: string, search: string, includeMetadata: string, delimiter: string)

  /** An entry of the result list: a matching record or a separator line. */
  datatype Item = Record(doc: Json) | Separator(line: string)

  /** What the scan does with one delivered message. */
  datatype Verdict = Keep(doc: Json) | Skip | Abort(exc: Exc)

  /** The search predicate: the search string occurs in the lower-cased rendering. */
  predicate Matches(q: Query, codec: Codec, data: Json) {
    Contains(Lower(codec.render(data)), q.search)
  }

  /** The TypeError of the JSON parser's fallback, which indexes the message object. */
  const MessageNotSubscriptable := Builtin("'cimpl.Message' object is not subscriptable")

  /** msg.key().decode() */
  function KeyText(codec: Codec, m: Message): (r: Try<string>)
    ensures m.key.None? ==> r.Fail?
    ensures r.Fail? ==> r.exc.Builtin?
  {
    match m.key
    case None => Fail(NoAttribute(JNull, "decode"))
    case Some(k) => Lift(codec.utf8(k))
  }

  /** The metadata the JSON parser's try block builds, or the exception it raises. */
  function JsonMetadata(codec: Codec, m: Message): (r: Try<map<string, Json>>)
    ensures r.Ok? ==> r.value.Keys == {"key", "another_example"}
    ensures r.Ok? ==> m.anotherExample.Got? && r.value["another_example"] == m.anotherExample.value
    ensures r.Ok? <==>
      && KeyText(codec, m).Ok? && m.anotherExample.Got?
      && (StartsWith(KeyText(codec, m).value, "{") ==> codec.jsonLoads(m.key.value).Got?)
    ensures r.Ok? && StartsWith(KeyText(codec, m).value, "{") ==> r.value["key"] == codec.jsonLoads(m.key.value).value
    ensures r.Ok? && !StartsWith(KeyText(codec, m).value, "{") ==> r.value["key"] == JStr(KeyText(codec, m).value)
  {
    var text :- KeyText(codec, m);
    var key :- (if StartsWith(text, "{") && m.key.Some? then Lift(codec.jsonLoads(m.key.value))
                else Ok(JStr(text)));
    var extra :- Lift(m.anotherExample);
    Ok(map["key" := key, "another_example" := extra])
  }

  /**
   * __parse_json_msg: the decoded record when it matches (None, i.e.
   * JNull, when it does not). With metadata requested, any failure in the
   * metadata block reaches a fallback that itself raises a TypeError.
   */
  function ParseJsonMsg(q: Query, codec: Codec, m: Message): (r: Try<Json>)
    ensures r.Fail? ==> r.exc.Builtin?
    ensures codec.jsonLoads(m.value).Threw? ==> r.Fail?
    ensures r.Ok? && r.value != JNull ==>
              codec.jsonLoads(m.value).Got? && Matches(q, codec, codec.jsonLoads(m.value).value)
  {
    var data :- Lift(codec.jsonLoads(m.value));
    if !Matches(q, codec, data) then Ok(JNull)
    else if q.includeMetadata != "true" then Ok(data)
    else
      var marked :- SetItem(data, MetadataField, JDict(map[]));
      match JsonMetadata(codec, m)
      case Ok(meta) => SetItem(data, MetadataField, JDict(meta))
      case Fail(_) => Fail(MessageNotSubscriptable)
  }

  /** The metadata the Avro parser attaches; a failure is recorded under 'error'. */
  function AvroMetadata(codec: Codec, m: Message): (meta: map<string, Json>)
    ensures "error" in meta <==> KeyText(codec, m).Fail? || m.anotherExample.Threw?
    ensures "key" in meta <==> KeyText(codec, m).Ok?
    ensures "another_example" in meta <==> KeyText(codec, m).Ok? && m.anotherExample.Got?
    ensures KeyText(codec, m).Ok? ==> meta["key"] == JStr(KeyText(codec, m).value)
    ensures "another_example" in meta ==> meta["another_example"] == m.anotherExample.value
    ensures KeyText(codec, m).Fail? ==> meta["error"] == JStr(MetadataErrorPrefix + Describe(KeyText(codec, m).exc))
    ensures KeyText(codec, m).Ok? && m.anotherExample.Threw? ==>
              meta["error"] == JStr(MetadataErrorPrefix + m.anotherExample.text)
  {
    match KeyText(codec, m)
    case Fail(e) => map["error" := JStr(MetadataErrorPrefix + Describe(e))]
    case Ok(k) =>
      match m.anotherExample
      case Threw(t) => map["key" := JStr(k), "error" := JStr(MetadataErrorPrefix + t)]
      case Got(x) => map["key" := JStr(k), "another_example" := x]
  }

  /** convert_avro_msg: every deserializer failure becomes an ErrorHandler. */
  function AvroDecode(q: Query, codec: Codec, m: Message): (r: Try<Json>)
    ensures r.Ok? <==> codec.avroDecode(q.topic, m.value).Got?
    ensures r.Fail? ==> r.exc == ErrorHandler(AvroDecodeErrorPrefix + codec.avroDecode(q.topic, m.value).text)
  {
    match codec.avroDecode(q.topic, m.value)
    case Got(d) => Ok(d)
    case Threw(t) => Fail(ErrorHandler(AvroDecodeErrorPrefix + t))
  }

  /** __parse_avro_msg */
  function ParseAvroMsg(q: Query, codec: Codec, m: Message): (r: Try<Json>)
    ensures r.Fail? && r.exc.ErrorHandler? ==> codec.avroDecode(q.topic, m.value).Threw?
    ensures r.Ok? && r.value != JNull ==>
              codec.avroDecode(q.topic, m.value).Got? && Matches(q, codec, codec.avroDecode(q.topic, m.value).value)
  {
    var data :- AvroDecode(q, codec, m);
    if !Matches(q, codec, data) then Ok(JNull)
    else if q.includeMetadata != "true" then Ok(data)
    else SetItem(data, MetadataField, JDict(AvroMetadata(codec, m)))
  }

  /**
   * One delivered message, inside the poll loop's try: a truthy parse
   * result is kept, an ErrorHandler aborts the topic, any other exception
   * skips the message.
   */
  function Classify(q: Query, codec: Codec, m: Message): (v: Verdict)
    ensures v.Abort? ==> q.kind == "avro" && codec.avroDecode(q.topic, m.value).Threw?
    ensures v.Keep? ==> Truthy(v.doc)
    ensures q.kind == "avro" && codec.avroDecode(q.topic, m.value).Threw? ==>
      v == Abort(ErrorHandler(ParseErrorPrefix + (AvroDecodeErrorPrefix + codec.avroDecode(q.topic, m.value).text)))
    ensures v.Keep? ==>
      || (q.kind == "json" && codec.jsonLoads(m.value).Got? && Matches(q, codec, codec.jsonLoads(m.value).value))
      || (q.kind == "avro" && codec.avroDecode(q.topic, m.value).Got?
          && Matches(q, codec, codec.avroDecode(q.topic, m.value).value))
  {
    var parsed :=
      if q.kind == "json" then ParseJsonMsg(q, codec, m)
      else if q.kind == "avro" then ParseAvroMsg(q, codec, m)
      else Ok(JNull);
    match parsed
    case Ok(d) => if Truthy(d) then Keep(d) else Skip
    case Fail(ErrorHandler(t)) => Abort(ErrorHandler(ParseErrorPrefix + t))
    case Fail(_) => Skip
  }

  /** The entries one match adds at the front of the list. */
  function Block(delimiter: string, d: Json): (b: seq<Item>)
    ensures |b| == if delimiter == "true" then 4 else 1
    ensures b[0] == Record(d)
  {
    if delimiter == "true" then
      [Record(d), Separator(SeparatorRule), Separator(SeparatorTitle), Separator(SeparatorRule)]
    else [Record(d)]
  }

  // ---- the reference: what a scan discovers, in discovery order ----

  /** The fate of a scan, with the kept records in the order they were polled. */
  datatype Summary = Finished(found: seq<Json>) | Aborted(exc: Exc) | Endless

  /** Discovery over one partition, appending each kept record. */
  function Discover(q: Query, codec: Codec, polls: seq<PollEvent>): Summary
    decreases |polls|
  {
    if polls == [] then Endless
    else match polls[0]
      case EndOfPartition => Finished([])
      case Delivered(m) =>
        (match Classify(q, codec, m)
         case Abort(e) => Aborted(e)
         case Skip => Discover(q, codec, polls[1..])
         case Keep(d) => Found(d, Discover(q, codec, polls[1..])))
      case _ => Discover(q, codec, polls[1..])
  }

  /** Discovery over the partitions of a topic, one after the other. */
  function DiscoverAll(q: Query, codec: Codec, parts: seq<Partition>): Summary
    decreases |parts|
  {
    if parts == [] then Finished([])
    else match Discover(q, codec, parts[0].polls)
      case Finished(a) => FoundAll(a, DiscoverAll(q, codec, parts[1..]))
      case other => other
  }

  /** d, discovered before what s discovered. */
  function Found(d: Json, s: Summary): Summary {
    match s
    case Finished(ds) => Finished([d] + ds)
    case other => other
  }

  /** a, discovered before what s discovered. */
  function FoundAll(a: seq<Json>, s: Summary): Summary {
    match s
    case Finished(b) => Finished(a + b)
    case other => other
  }

  /** The list a scan returns for matches discovered in order: newest first. */
  function Layout(delimiter: string, found: seq<Json>): seq<Item>
    decreases |found|
  {
    if found == [] then []
    else Block(delimiter, found[|found| - 1]) + Layout(delimiter, found[..|found| - 1])
  }

  /** What the scan reports, given its discovery and the entries before it. */
  function Reported(s: Summary, delimiter: string, acc: seq<Item>): Outcome<seq<Item>> {
    match s
    case Finished(found) => Returns(Layout(delimiter, found) + acc)
    case Aborted(e) => Raises(e)
    case Endless => Hangs
  }

  lemma {:induction false} LayoutCons(delimiter: string, d: Json, ds: seq<Json>)
    ensures Layout(delimiter, [d] + ds) == Layout(delimiter, ds) + Block(delimiter, d)
    decreases |ds|
  {
    if ds == [] {
      assert Layout(delimiter, [d]) == Block(delimiter, d) + Layout(delimiter, []);
    } else {
      var xs := [d] + ds;
      assert xs[..|xs| - 1] == [d] + ds[..|ds| - 1];
      assert xs[|xs| - 1] == ds[|ds| - 1];
      LayoutCons(delimiter, d, ds[..|ds| - 1]);
    }
  }

  /** Matches found later come first: the layout of a + b puts b's before a's. */
  lemma {:induction false} LayoutAppend(delimiter: string, a: seq<Json>, b: seq<Json>)
    ensures Layout(delimiter, a + b) == Layout(delimiter, b) + Layout(delimiter, a)
    decreases |b|
  {
    if b == [] {
      assert a + b == a;
      assert [] + Layout(delimiter, a) == Layout(delimiter, a);
    } else {
      var xs := a + b;
      var b' := b[..|b| - 1];
      var blk := Block(delimiter, b[|b| - 1]);
      assert xs[..|xs| - 1] == a + b';
      assert xs[|xs| - 1] == b[|b| - 1];
      assert Layout(delimiter, xs) == blk + Layout(delimiter, a + b');
      assert Layout(delimiter, b) == blk + Layout(delimiter, b');
      LayoutAppend(delimiter, a, b');
      ConcatAssoc(blk, Layout(delimiter, b'), Layout(delimiter, a));
    }
  }

  /** Prepending one block to the entries is reporting one earlier discovery. */
  lemma PrependBlock(delimiter: string, d: Json, s: Summary, acc: seq<Item>)
    ensures Reported(s, delimiter, Block(delimiter, d) + acc) == Reported(Found(d, s), delimiter, acc)
  {
    if s.Finished? {
      LayoutCons(delimiter, d, s.found);
      assert Layout(delimiter, s.found) + (Block(delimiter, d) + acc)
          == Layout(delimiter, [d] + s.found) + acc;
    }
  }

  /** Proof helper: regrouping a concatenation, stated once so the solver is not left to find it. */
  lemma ConcatAssoc<T>(x: seq<T>, y: seq<T>, z: seq<T>)
    ensures (x + y) + z == x + (y + z)
  {
  }

  /** Scanning on from one partition's entries is reporting its discoveries first. */
  lemma PrependPartition(delimiter: string, a: seq<Json>, s: Summary, acc: seq<Item>)
    ensures Reported(s, delimiter, Layout(delimiter, a) + acc) == Reported(FoundAll(a, s), delimiter, acc)
  {
    match s
    case Finished(b) =>
      LayoutAppend(delimiter, a, b);
      ConcatAssoc(Layout(delimiter, b), Layout(delimiter, a), acc);
    case _ =>
  }

  // ---- the scan as written ----

  /**
   * The poll loop over one partition, prepending each kept record (and
   * its separator block) to acc. It stops at end-of-partition; a stream
   * that runs out without one leaves the loop polling forever.
   */
  function ScanPartition(q: Query, codec: Codec, polls: seq<PollEvent>, acc: seq<Item>)
    : (r: Outcome<seq<Item>>)
    ensures r == Reported(Discover(q, codec, polls), q.delimiter, acc)
    decreases |polls|
  {
    if polls == [] then Hangs
    else match polls[0]
      case NoMessage => ScanPartition(q, codec, polls[1..], acc)
      case EndOfPartition => assert Layout(q.delimiter, []) + acc == acc; Returns(acc)
      case BrokerError(_) => ScanPartition(q, codec, polls[1..], acc)
      case Delivered(m) =>
        match Classify(q, codec, m)
        case Abort(e) => Raises(e)
        case Skip => ScanPartition(q, codec, polls[1..], acc)
        case Keep(d) =>
          PrependBlock(q.delimiter, d, Discover(q, codec, polls[1..]), acc);
          ScanPartition(q, codec, polls[1..], Block(q.delimiter, d) + acc)
  }

  /** The loop over the partitions of a topic, in the order the broker lists them. */
  function ScanPartitions(q: Query, codec: Codec, parts: seq<Partition>, acc: seq<Item>)
    : (r: Outcome<seq<Item>>)
    ensures r == Reported(DiscoverAll(q, codec, parts), q.delimiter, acc)
    decreases |parts|
  {
    if parts == [] then assert Layout(q.delimiter, []) + acc == acc; Returns(acc)
    else match ScanPartition(q, codec, parts[0].polls, acc)
      case Returns(acc') =>
        PrependPartition(q.delimiter, Discover(q, codec, parts[0].polls).found,
                         DiscoverAll(q, codec, parts[1..]), acc);
        ScanPartitions(q, codec, parts[1..], acc')
      case other => other
  }

  /**
   * search_for_msgs: a topic the broker does not list is refused before
   * any partition is assigned; otherwise its partitions are scanned in turn.
   */
  function SearchForMsgs(q: Query, codec: Codec, topics: map<string, seq<Partition>>)
    : (r: Outcome<seq<Item>>)
    ensures q.topic !in topics ==> r == Raises(ErrorHandler(AccessErrorPrefix + q.topic))
    ensures q.topic in topics ==> r == Reported(DiscoverAll(q, codec, topics[q.topic]), q.delimiter, [])
  {
    if q.topic !in topics then Raises(ErrorHandler(AccessErrorPrefix + q.topic))
    else ScanPartitions(q, codec, topics[q.topic], [])
  }

  // ---- properties of the scan ----

  /** Without the delimiter flag the list is exactly the matches, newest first. */
  lemma {:induction false} LayoutPlain(delimiter: string, found: seq<Json>)
    requires delimiter != "true"
    ensures |Layout(delimiter, found)| == |found|
    ensures forall k :: 0 <= k < |found| ==> Layout(delimiter, found)[k] == Record(found[|found| - 1 - k])
    decreases |found|
  {
    if found != [] {
      var init := found[..|found| - 1];
      LayoutPlain(delimiter, init);
      var l := Layout(delimiter, found);
      assert l == [Record(found[|found| - 1])] + Layout(delimiter, init);
      forall k | 0 <= k < |found| ensures l[k] == Record(found[|found| - 1 - k]) {
        if k > 0 {
          assert l[k] == Layout(delimiter, init)[k - 1];
          assert init[|init| - 1 - (k - 1)] == found[|found| - 1 - k];
        }
      }
    }
  }

  /**
   * With delimiter 'true' every match is followed by the three separator
   * lines: four entries per match, and every fourth entry from 0 is a
   * match, newest first.
   */
  lemma {:induction false} LayoutDelimited(delimiter: string, found: seq<Json>)
    requires delimiter == "true"
    ensures |Layout(delimiter, found)| == 4 * |found|
    ensures forall k :: 0 <= k < |found| ==>
      && Layout(delimiter, found)[4 * k] == Record(found[|found| - 1 - k])
      && Layout(delimiter, found)[4 * k + 1] == Separator(SeparatorRule)
      && Layout(delimiter, found)[4 * k + 2] == Separator(SeparatorTitle)
      && Layout(delimiter, found)[4 * k + 3] == Separator(SeparatorRule)
    decreases |found|
  {
    if found != [] {
      var init := found[..|found| - 1];
      LayoutDelimited(delimiter, init);
      var rest := Layout(delimiter, init);
      var l := Layout(delimiter, found);
      assert l == Block(delimiter, found[|found| - 1]) + rest;
      forall k | 0 <= k < |found|
        ensures l[4 * k] == Record(found[|found| - 1 - k])
        ensures l[4 * k + 1] == Separator(SeparatorRule)
        ensures l[4 * k + 2] == Separator(SeparatorTitle)
        ensures l[4 * k + 3] == Separator(SeparatorRule)
      {
        if k > 0 {
          var j := k - 1;
          assert 4 * k == 4 * j + 4;
          assert l[4 * k] == rest[4 * j];
          assert l[4 * k + 1] == rest[4 * j + 1];
          assert l[4 * k + 2] == rest[4 * j + 2];
          assert l[4 * k + 3] == rest[4 * j + 3];
          assert init[|init| - 1 - j] == found[|found| - 1 - k];
        }
      }
    }
  }

  /** A scan's list has one entry per match, or four with the delimiter flag. */
  lemma ScanSize(q: Query, codec: Codec, topics: map<string, seq<Partition>>)
    requires q.topic in topics
    requires DiscoverAll(q, codec, topics[q.topic]).Finished?
    ensures var n := |DiscoverAll(q, codec, topics[q.topic]).found|;
            SearchForMsgs(q, codec, topics)
            == Returns(Layout(q.delimiter, DiscoverAll(q, codec, topics[q.topic]).found))
            && |SearchForMsgs(q, codec, topics).value| == (if q.delimiter == "true" then 4 * n else n)
  {
    var found := DiscoverAll(q, codec, topics[q.topic]).found;
    assert Layout(q.delimiter, found) + [] == Layout(q.delimiter, found);
    if q.delimiter == "true" {
      LayoutDelimited(q.delimiter, found);
    } else {
      LayoutPlain(q.delimiter, found);
    }
  }

  /** A kept message at the head of the polls is discovered before the rest. */
  lemma DiscoverKept(q: Query, codec: Codec, m: Message, d: Json, rest: seq<PollEvent>)
    requires Classify(q, codec, m) == Keep(d)
    ensures Discover(q, codec, [Delivered(m)] + rest) == Found(d, Discover(q, codec, rest))
  {
    assert ([Delivered(m)] + rest)[1..] == rest;
  }

  /** The polls of a partition that delivers the messages ms, in order. */
  function Deliveries(ms: seq<Message>): (r: seq<PollEvent>)
    ensures |r| == |ms|
    ensures forall i :: 0 <= i < |ms| ==> r[i] == Delivered(ms[i])
  {
    if ms == [] then [] else [Delivered(ms[0])] + Deliveries(ms[1..])
  }

  /** A partition whose every message is kept discovers them all, in polling order. */
  lemma {:induction false} AllKept(q: Query, codec: Codec, ms: seq<Message>, ds: seq<Json>)
    requires |ms| == |ds|
    requires forall i :: 0 <= i < |ms| ==> Classify(q, codec, ms[i]) == Keep(ds[i])
    ensures Discover(q, codec, Deliveries(ms) + [EndOfPartition]) == Finished(ds)
    decreases |ms|
  {
    if ms == [] {
      assert Deliveries(ms) + [EndOfPartition] == [EndOfPartition];
    } else {
      assert forall i :: 0 <= i < |ms| - 1 ==> ms[1..][i] == ms[i + 1] && ds[1..][i] == ds[i + 1];
      AllKept(q, codec, ms[1..], ds[1..]);
      KeptFirst(q, codec, ms, ds);
    }
  }

  /** A kept first message goes in front of what the rest of the partition discovers. */
  lemma KeptFirst(q: Query, codec: Codec, ms: seq<Message>, ds: seq<Json>)
    requires |ms| == |ds| > 0
    requires Classify(q, codec, ms[0]) == Keep(ds[0])
    requires Discover(q, codec, Deliveries(ms[1..]) + [EndOfPartition]) == Finished(ds[1..])
    ensures Discover(q, codec, Deliveries(ms) + [EndOfPartition]) == Finished(ds)
  {
    var rest := Deliveries(ms[1..]) + [EndOfPartition];
    assert Deliveries(ms) == [Delivered(ms[0])] + Deliveries(ms[1..]);
    ConcatAssoc([Delivered(ms[0])], Deliveries(ms[1..]), [EndOfPartition]);
    DiscoverKept(q, codec, ms[0], ds[0], rest);
    assert [ds[0]] + ds[1..] == ds;
  }

  /**
   * Matching messages M1..Mn, polled in that order from one partition,
   * come back as Mn..M1 when no delimiter is asked for.
   */
  lemma MatchesNewestFirst(q: Query, codec: Codec, ms: seq<Message>, ds: seq<Json>)
    requires |ms| == |ds| && q.delimiter != "true"
    requires forall i :: 0 <= i < |ms| ==> Classify(q, codec, ms[i]) == Keep(ds[i])
    ensures ScanPartition(q, codec, Deliveries(ms) + [EndOfPartition], []).Returns?
    ensures var r := ScanPartition(q, codec, Deliveries(ms) + [EndOfPartition], []).value;
      |r| == |ds| && forall k :: 0 <= k < |ds| ==> r[k] == Record(ds[|ds| - 1 - k])
  {
    AllKept(q, codec, ms, ds);
    LayoutPlain(q.delimiter, ds);
    assert Layout(q.delimiter, ds) + [] == Layout(q.delimiter, ds);
  }

  /** Two matches M1 then M2 with the delimiter flag: each is followed by its own block. */
  lemma TwoMatchesDelimited(q: Query, codec: Codec, m1: Message, m2: Message, d1: Json, d2: Json)
    requires q.delimiter == "true"
    requires Classify(q, codec, m1) == Keep(d1) && Classify(q, codec, m2) == Keep(d2)
    ensures ScanPartition(q, codec, [Delivered(m1), Delivered(m2), EndOfPartition], [])
            == Returns([Record(d2), Separator(SeparatorRule), Separator(SeparatorTitle), Separator(SeparatorRule),
                        Record(d1), Separator(SeparatorRule), Separator(SeparatorTitle), Separator(SeparatorRule)])
  {
    var p2 := [EndOfPartition];
    var p1 := [Delivered(m2)] + p2;
    var p0 := [Delivered(m1)] + p1;
    DiscoverKept(q, codec, m2, d2, p2);
    DiscoverKept(q, codec, m1, d1, p1);
    assert Discover(q, codec, p0) == Finished([d1, d2]);
    assert p0 == [Delivered(m1), Delivered(m2), EndOfPartition];
    assert [d1, d2][..1] == [d1];
    var b1 := Block(q.delimiter, d1);
    var b2 := Block(q.delimiter, d2);
    assert Layout(q.delimiter, [d1]) == b1 + Layout(q.delimiter, []);
    assert Layout(q.delimiter, [d1, d2]) == b2 + b1;
    assert b1 == [Record(d1), Separator(SeparatorRule), Separator(SeparatorTitle), Separator(SeparatorRule)];
    assert b2 == [Record(d2), Separator(SeparatorRule), Separator(SeparatorTitle), Separator(SeparatorRule)];
    assert ScanPartition(q, codec, p0, []) == Returns(b2 + b1 + []);
    assert b2 + b1 + [] == b2 + b1;
    assert b2 + b1 == [Record(d2), Separator(SeparatorRule), Separator(SeparatorTitle), Separator(SeparatorRule),
                       Record(d1), Separator(SeparatorRule), Separator(SeparatorTitle), Separator(SeparatorRule)];
  }

  /** Polls that return None or a non-EOF error change nothing. */
  lemma {:induction false} IdlePollsIgnored(q: Query, codec: Codec, pre: seq<PollEvent>, e: PollEvent, post: seq<PollEvent>)
    requires e.NoMessage? || e.BrokerError?
    ensures Discover(q, codec, pre + [e] + post) == Discover(q, codec, pre + post)
    decreases |pre|
  {
    if pre == [] {
      assert pre + [e] + post == [e] + post;
      assert ([e] + post)[1..] == post;
      assert pre + post == post;
    } else {
      assert (pre + [e] + post)[0] == pre[0];
      assert (pre + [e] + post)[1..] == pre[1..] + [e] + post;
      assert (pre + post)[0] == pre[0];
      assert (pre + post)[1..] == pre[1..] + post;
      IdlePollsIgnored(q, codec, pre[1..], e, post);
    }
  }

  /** Nothing polled after an end-of-partition is read: the loop has moved on. */
  lemma {:induction false} EndOfPartitionStops(q: Query, codec: Codec, pre: seq<PollEvent>, post1: seq<PollEvent>, post2: seq<PollEvent>)
    ensures Discover(q, codec, pre + [EndOfPartition] + post1) == Discover(q, codec, pre + [EndOfPartition] + post2)
    decreases |pre|
  {
    var x1 := pre + [EndOfPartition] + post1;
    var x2 := pre + [EndOfPartition] + post2;
    if pre != [] {
      assert x1[0] == pre[0] && x2[0] == pre[0];
      assert x1[1..] == pre[1..] + [EndOfPartition] + post1;
      assert x2[1..] == pre[1..] + [EndOfPartition] + post2;
      EndOfPartitionStops(q, codec, pre[1..], post1, post2);
    } else {
      assert x1[0] == EndOfPartition && x2[0] == EndOfPartition;
    }
  }

  /** Only an Avro scan can abort on a message. */
  lemma {:induction false} OnlyAvroAborts(q: Query, codec: Codec, parts: seq<Partition>)
    requires q.kind != "avro"
    ensures !DiscoverAll(q, codec, parts).Aborted?
    decreases |parts|
  {
    if parts != [] {
      DiscoverNeverAborts(q, codec, parts[0].polls);
      OnlyAvroAborts(q, codec, parts[1..]);
    }
  }

  lemma {:induction false} DiscoverNeverAborts(q: Query, codec: Codec, polls: seq<PollEvent>)
    requires q.kind != "avro"
    ensures !Discover(q, codec, polls).Aborted?
    decreases |polls|
  {
    if polls != [] {
      DiscoverNeverAborts(q, codec, polls[1..]);
    }
  }

  /**
   * A JSON scan raises only for a topic the broker does not list: a
   * message that fails to decode is skipped, never fatal.
   */
  lemma JsonScanRaisesOnlyOnAccess(q: Query, codec: Codec, topics: map<string, seq<Partition>>)
    requires q.kind == "json"
    ensures SearchForMsgs(q, codec, topics).Raises? <==> q.topic !in topics
  {
    if q.topic in topics {
      OnlyAvroAborts(q, codec, topics[q.topic]);
    }
  }

  /**
   * Without metadata a JSON message is kept iff it decodes, matches and is
   * truthy, and it is kept unchanged; a decoding failure skips it.
   */
  lemma JsonVerdict(q: Query, codec: Codec, m: Message)
    requires q.kind == "json" && q.includeMetadata != "true"
    ensures Classify(q, codec, m) ==
      match codec.jsonLoads(m.value)
      case Got(x) => if Matches(q, codec, x) && Truthy(x) then Keep(x) else Skip
      case Threw(_) => Skip
  {
  }

  /**
   * Without metadata an Avro message is kept iff it decodes, matches and
   * is truthy; a deserializer failure aborts the whole topic.
   */
  lemma AvroVerdict(q: Query, codec: Codec, m: Message)
    requires q.kind == "avro" && q.includeMetadata != "true"
    ensures Classify(q, codec, m) ==
      match codec.avroDecode(q.topic, m.value)
      case Got(x) => if Matches(q, codec, x) && Truthy(x) then Keep(x) else Skip
      case Threw(t) => Abort(ErrorHandler(ParseErrorPrefix + AvroDecodeErrorPrefix + t))
  {
    match codec.avroDecode(q.topic, m.value)
    case Got(x) =>
    case Threw(t) =>
      assert ParseAvroMsg(q, codec, m) == Fail(ErrorHandler(AvroDecodeErrorPrefix + t));
      assert ParseErrorPrefix + (AvroDecodeErrorPrefix + t) == ParseErrorPrefix + AvroDecodeErrorPrefix + t;
  }

  /**
   * With metadata on a JSON topic, a decoded, matching dict is kept with
   * the metadata block added when the key and another_example can be
   * read; everything else is dropped.
   */
  lemma JsonMetadataVerdict(q: Query, codec: Codec, m: Message)
    requires q.kind == "json" && q.includeMetadata == "true"
    ensures Classify(q, codec, m) ==
      match codec.jsonLoads(m.value)
      case Got(x) =>
        if Matches(q, codec, x) && x.JDict? && JsonMetadata(codec, m).Ok?
        then Keep(JDict(x.entries[MetadataField := JDict(JsonMetadata(codec, m).value)]))
        else Skip
      case Threw(_) => Skip
  {
    match codec.jsonLoads(m.value)
    case Got(x) =>
      if Matches(q, codec, x) && x.JDict? && JsonMetadata(codec, m).Ok? {
        var doc := JDict(x.entries[MetadataField := JDict(JsonMetadata(codec, m).value)]);
        assert ParseJsonMsg(q, codec, m) == Ok(doc);
        assert MetadataField in doc.entries;
      }
    case Threw(_) =>
  }

  /**
   * With metadata on an Avro topic, a decoded, matching dict is kept with
   * its metadata block (which records any metadata failure), a
   * deserializer failure aborts the topic, and everything else is dropped.
   */
  lemma AvroMetadataVerdict(q: Query, codec: Codec, m: Message)
    requires q.kind == "avro" && q.includeMetadata == "true"
    ensures Classify(q, codec, m) ==
      match codec.avroDecode(q.topic, m.value)
      case Got(x) =>
        if Matches(q, codec, x) && x.JDict?
        then Keep(JDict(x.entries[MetadataField := JDict(AvroMetadata(codec, m))]))
        else Skip
      case Threw(t) => Abort(ErrorHandler(ParseErrorPrefix + AvroDecodeErrorPrefix + t))
  {
    match codec.avroDecode(q.topic, m.value)
    case Got(x) =>
      if Matches(q, codec, x) && x.JDict? {
        var doc := JDict(x.entries[MetadataField := JDict(AvroMetadata(codec, m))]);
        assert ParseAvroMsg(q, codec, m) == Ok(doc);
        assert MetadataField in doc.entries;
      }
    case Threw(t) =>
      assert ParseErrorPrefix + (AvroDecodeErrorPrefix + t) == ParseErrorPrefix + AvroDecodeErrorPrefix + t;
  }

  /** A message type other than 'json' and 'avro' never contributes. */
  lemma OtherKindFindsNothing(q: Query, codec: Codec, topics: map<string, seq<Partition>>)
    requires q.kind != "json" && q.kind != "avro"
    requires q.topic in topics
    ensures SearchForMsgs(q, codec, topics) == Returns([]) || SearchForMsgs(q, codec, topics) == Hangs
  {
    NothingFound(q, codec, topics[q.topic]);
  }

  lemma {:induction false} NothingFound(q: Query, codec: Codec, parts: seq<Partition>)
    requires q.kind != "json" && q.kind != "avro"
    ensures DiscoverAll(q, codec, parts) == Finished([]) || DiscoverAll(q, codec, parts) == Endless
    decreases |parts|
  {
    if parts != [] {
      NothingFoundInPartition(q, codec, parts[0].polls);
      NothingFound(q, codec, parts[1..]);
    }
  }

  lemma {:induction false} NothingFoundInPartition(q: Query, codec: Codec, polls: seq<PollEvent>)
    requires q.kind != "json" && q.kind != "avro"
    ensures Discover(q, codec, polls) == Finished([]) || Discover(q, codec, polls) == Endless
    decreases |polls|
  {
    if polls != [] {
      NothingFoundInPartition(q, codec, polls[1..]);
    }
  }

  /**
   * With metadata on a JSON topic, a failure anywhere in the metadata
   * block drops the message: the fallback indexes the message object
   * and its TypeError is swallowed like any other.
   */
  lemma JsonMetadataFailureDrops(q: Query, codec: Codec, m: Message)
    requires q.kind == "json" && q.includeMetadata == "true"
    requires JsonMetadata(codec, m).Fail?
    ensures Classify(q, codec, m) == Skip
  {
  }

  /** In particular a JSON message is dropped whenever msg.another_example() raises. */
  lemma JsonMetadataNeedsAnotherExample(q: Query, codec: Codec, m: Message)
    requires q.kind == "json" && q.includeMetadata == "true"
    requires m.anotherExample.Threw?
    ensures Classify(q, codec, m) == Skip
  {
    JsonMetadataFailureDrops(q, codec, m);
  }

  /**
   * With metadata on an Avro topic a metadata failure is recorded in the
   * record, which is still kept.
   */
  lemma AvroMetadataFailureKept(q: Query, codec: Codec, m: Message, x: Json, k: string, t: string)
    requires q.kind == "avro" && q.includeMetadata == "true"
    requires codec.avroDecode(q.topic, m.value) == Got(x) && x.JDict? && Matches(q, codec, x)
    requires KeyText(codec, m) == Ok(k) && m.anotherExample == Threw(t)
    ensures Classify(q, codec, m)
            == Keep(JDict(x.entries[MetadataField := JDict(map["key" := JStr(k), "error" := JStr(MetadataErrorPrefix + t)])]))
  {
    var meta := map["key" := JStr(k), "error" := JStr(MetadataErrorPrefix + t)];
    assert AvroMetadata(codec, m) == meta;
    var doc := JDict(x.entries[MetadataField := JDict(meta)]);
    assert ParseAvroMsg(q, codec, m) == Ok(doc);
    assert MetadataField in doc.entries;
    assert Truthy(doc);
  }
}

=== FILE: kafka_manager.dfy ===
/**
 * The consumer settings a broker connection is opened with: a pure
 * mapping from the main configuration file and an environment name to a
 * settings dictionary, and the error wrapping around building it.
 */
module KafkaManager {
  import opened PyText
  import opened PyValues

  const MissingKeyPrefix := "Missing required key from main config file. Missing key: "
  const ConsumerInitPrefix := "Error initializing Kafka Consumer: "

  /** The names of the consumer settings. */
  const SettingNames: set<string> := {
    "bootstrap.servers", "group.id", "client.id", "enable.auto.commit",
    "session.timeout.ms", "default.topic.config", "security.protocol",
    "ssl.key.location", "ssl.key.password", "ssl.certificate.location",
    "ssl.ca.location", "enable.partition.eof", "api.version.request"
  }

  /**
   * The values the settings dictionary literal reads, in its order of
   * evaluation; its entries are evaluated left to right, so the first
   * lookup or conversion that raises decides the exception.
   */
  datatype Lookups = Lookups(
    servers: Json, groupId: Json, clientId: Json, autoCommit: string, sessionTimeout: int,
    offsetReset: Json, protocol: Json,
    keyLocation: Json, keyPassword: Json, certLocation: Json, caLocation: Json,
    partitionEof: string, apiVersion: string)

  /** config.get(k): None when absent. */
  function Opt(config: map<string, Json>, k: string): Json {
    Get(config, k, JNull)
  }

  /** config[outer][inner] exists. */
  predicate HasNested(config: map<string, Json>, outer: string, inner: string) {
    outer in config && config[outer].JDict? && inner in config[outer].entries
  }

  /** The entry config[outer][inner]. */
  function Nested(config: map<string, Json>, outer: string, inner: string): Json
    requires HasNested(config, outer, inner)
  {
    config[outer].entries[inner]
  }

  /** config['ssl'][environment][inner] exists. */
  predicate HasSsl(config: map<string, Json>, environment: string, inner: string) {
    HasNested(config, "ssl", environment)
    && Nested(config, "ssl", environment).JDict?
    && inner in Nested(config, "ssl", environment).entries
  }

  /** config['ssl'][environment][inner] */
  function Ssl(config: map<string, Json>, environment: string, inner: string): Json
    requires HasSsl(config, environment, inner)
  {
    Nested(config, "ssl", environment).entries[inner]
  }

  /** d[k] on a dictionary value misses k. */
  predicate MissingIn(d: Json, k: string) {
    d.JDict? && k !in d.entries
  }

  /**
   * The KeyErrors config[outer][inner] can raise: outer missing from the
   * main configuration, or inner missing from the dictionary found there.
   */
  predicate MissingNested(config: map<string, Json>, outer: string, inner: string, k: string) {
    || (k == outer && outer !in config)
    || (outer in config && k == inner && MissingIn(config[outer], inner))
  }

  /** A subscripted key of the settings literal, missing where it is looked up. */
  predicate MissingLookup(config: map<string, Json>, environment: string, k: string) {
    || MissingNested(config, "bootstrap.servers", environment, k)
    || MissingNested(config, "default.topic.config", "auto.offset.reset", k)
    || MissingNested(config, "ssl", environment, k)
    || (HasNested(config, "ssl", environment)
        && k in {"ssl.key.location", "ssl.key.password", "ssl.certificate.location"}
        && MissingIn(Nested(config, "ssl", environment), k))
    || (k == "ssl.ca.location" && k !in config)
  }

  /** config[outer][inner] */
  function Lookup2(config: map<string, Json>, outer: string, inner: string): (r: Try<Json>)
    ensures r.Ok? <==> HasNested(config, outer, inner)
    ensures r.Ok? ==> r.value == Nested(config, outer, inner)
    ensures r.Fail? ==> r.exc.KeyError? || r.exc.Builtin?
    ensures r.Fail? && r.exc.KeyError? ==> MissingNested(config, outer, inner, r.exc.key)
  {
    var o :- Index(config, outer);
    Subscript(o, inner)
  }

  /** The entries up to session.timeout.ms. */
  function ReadConnection(config: map<string, Json>, environment: string)
    : (r: Try<(Json, string, int)>)
    ensures r.Ok? <==>
      && HasNested(config, "bootstrap.servers", environment)
      && Opt(config, "enable.auto.commit").JStr?
      && IntOf(Opt(config, "session.timeout.ms")).Ok?
    ensures r.Ok? ==> r.value.0 == Nested(config, "bootstrap.servers", environment)
    ensures r.Ok? ==> r.value.1 == Lower(Opt(config, "enable.auto.commit").s)
    ensures r.Ok? ==> r.value.2 == IntOf(Opt(config, "session.timeout.ms")).value
    ensures r.Fail? ==> r.exc.KeyError? || r.exc.Builtin?
    ensures r.Fail? && r.exc.KeyError? ==> MissingNested(config, "bootstrap.servers", environment, r.exc.key)
  {
    var servers :- Lookup2(config, "bootstrap.servers", environment);
    var autoCommit :- LowerOf(Opt(config, "enable.auto.commit"));
    var sessionTimeout :- IntOf(Opt(config, "session.timeout.ms"));
    Ok((servers, autoCommit, sessionTimeout))
  }

  /** The four TLS entries. */
  function ReadSsl(config: map<string, Json>, environment: string): (r: Try<(Json, Json, Json, Json)>)
    ensures r.Ok? <==>
      && HasSsl(config, environment, "ssl.key.location")
      && HasSsl(config, environment, "ssl.key.password")
      && HasSsl(config, environment, "ssl.certificate.location")
      && "ssl.ca.location" in config
    ensures r.Ok? ==> r.value.0 == Ssl(config, environment, "ssl.key.location")
    ensures r.Ok? ==> r.value.1 == Ssl(config, environment, "ssl.key.password")
    ensures r.Ok? ==> r.value.2 == Ssl(config, environment, "ssl.certificate.location")
    ensures r.Ok? ==> r.value.3 == config["ssl.ca.location"]
    ensures r.Fail? ==> r.exc.KeyError? || r.exc.Builtin?
    ensures r.Fail? && r.exc.KeyError? ==> MissingLookup(config, environment, r.exc.key)
  {
    var ssl :- Lookup2(config, "ssl", environment);
    var keyLocation :- Subscript(ssl, "ssl.key.location");
    var keyPassword :- Subscript(ssl, "ssl.key.password");
    var certLocation :- Subscript(ssl, "ssl.certificate.location");
    var caLocation :- Index(config, "ssl.ca.location");
    Ok((keyLocation, keyPassword, certLocation, caLocation))
  }

  /** Every lookup of the settings literal, in evaluation order. */
  function ReadLookups(config: map<string, Json>, environment: string): (r: Try<Lookups>)
    ensures r.Ok? <==> Complete(config, environment)
    ensures r.Ok? ==> r.value.servers == Nested(config, "bootstrap.servers", environment)
    ensures r.Ok? ==> r.value.autoCommit == Lower(Opt(config, "enable.auto.commit").s)
    ensures r.Ok? ==> r.value.sessionTimeout == IntOf(Opt(config, "session.timeout.ms")).value
    ensures r.Ok? ==> r.value.offsetReset == Nested(config, "default.topic.config", "auto.offset.reset")
    ensures r.Ok? ==> r.value.keyLocation == Ssl(config, environment, "ssl.key.location")
    ensures r.Ok? ==> r.value.keyPassword == Ssl(config, environment, "ssl.key.password")
    ensures r.Ok? ==> r.value.certLocation == Ssl(config, environment, "ssl.certificate.location")
    ensures r.Ok? ==> r.value.caLocation == config["ssl.ca.location"]
    ensures r.Ok? ==> r.value.partitionEof == Lower(Opt(config, "enable.partition.eof").s)
    ensures r.Ok? ==> r.value.apiVersion == Lower(Opt(config, "api.version.request").s)
    ensures r.Ok? ==> r.value.groupId == Opt(config, "group.id") && r.value.clientId == Opt(config, "client.id")
    ensures r.Ok? ==> r.value.protocol == Opt(config, "security.protocol")
    ensures r.Fail? ==> r.exc.KeyError? || r.exc.Builtin?
    ensures r.Fail? && r.exc.KeyError? ==> MissingLookup(config, environment, r.exc.key)
  {
    var head :- ReadConnection(config, environment);
    var offsetReset :- Lookup2(config, "default.topic.config", "auto.offset.reset");
    var tls :- ReadSsl(config, environment);
    var partitionEof :- LowerOf(Opt(config, "enable.partition.eof"));
    var apiVersion :- LowerOf(Opt(config, "api.version.request"));
    Ok(Lookups(head.0, Opt(config, "group.id"), Opt(config, "client.id"), head.1, head.2,
               offsetReset, Opt(config, "security.protocol"),
               tls.0, tls.1, tls.2, tls.3, partitionEof, apiVersion))
  }

  /** The settings dictionary built from the looked-up values. */
  function Assemble(v: Lookups): (s: map<string, Json>)
    ensures s.Keys == SettingNames
    ensures s["bootstrap.servers"] == v.servers
    ensures s["group.id"] == v.groupId && s["client.id"] == v.clientId
    ensures s["enable.auto.commit"] == JBool(v.autoCommit == "true")
    ensures s["session.timeout.ms"] == JInt(v.sessionTimeout)
    ensures s["default.topic.config"] == JDict(map["auto.offset.reset" := v.offsetReset])
    ensures s["security.protocol"] == v.protocol
    ensures s["ssl.key.location"] == v.keyLocation && s["ssl.key.password"] == v.keyPassword
    ensures s["ssl.certificate.location"] == v.certLocation && s["ssl.ca.location"] == v.caLocation
    ensures s["enable.partition.eof"] == JBool(v.partitionEof != "false")
    ensures s["api.version.request"] == JBool(v.apiVersion != "false")
  {
    map[
      "bootstrap.servers" := v.servers,
      "group.id" := v.groupId,
      "client.id" := v.clientId,
      "enable.auto.commit" := JBool(v.autoCommit == "true"),
      "session.timeout.ms" := JInt(v.sessionTimeout),
      "default.topic.config" := JDict(map["auto.offset.reset" := v.offsetReset]),
      "security.protocol" := v.protocol,
      "ssl.key.location" := v.keyLocation,
      "ssl.key.password" := v.keyPassword,
      "ssl.certificate.location" := v.certLocation,
      "ssl.ca.location" := v.caLocation,
      "enable.partition.eof" := JBool(v.partitionEof != "false"),
      "api.version.request" := JBool(v.apiVersion != "false")
    ]
  }

  /** A main configuration under which every lookup and conversion succeeds. */
  predicate Complete(config: map<string, Json>, environment: string) {
    && HasNested(config, "bootstrap.servers", environment)
    && Opt(config, "enable.auto.commit").JStr?
    && IntOf(Opt(config, "session.timeout.ms")).Ok?
    && HasNested(config, "default.topic.config", "auto.offset.reset")
    && HasSsl(config, environment, "ssl.key.location")
    && HasSsl(config, environment, "ssl.key.password")
    && HasSsl(config, environment, "ssl.certificate.location")
    && "ssl.ca.location" in config
    && Opt(config, "enable.partition.eof").JStr?
    && Opt(config, "api.version.request").JStr?
  }

  /**
   * __build_consumer_dict: the settings of one environment. A KeyError
   * is turned into a missing-key message; any other exception escapes.
   */
  function BuildConsumerDict(config: map<string, Json>, environment: string): (r: Try<map<string, Json>>)
    ensures r.Ok? <==> Complete(config, environment)
    ensures r.Ok? ==> r.value.Keys == SettingNames
    ensures r.Ok? ==> r.value["bootstrap.servers"] == Nested(config, "bootstrap.servers", environment)
    ensures r.Ok? ==> r.value["ssl.key.location"] == Ssl(config, environment, "ssl.key.location")
    ensures r.Ok? ==> r.value["ssl.key.password"] == Ssl(config, environment, "ssl.key.password")
    ensures r.Ok? ==> r.value["ssl.certificate.location"] == Ssl(config, environment, "ssl.certificate.location")
    ensures r.Ok? ==> r.value["default.topic.config"]
                      == JDict(map["auto.offset.reset" := Nested(config, "default.topic.config", "auto.offset.reset")])
    ensures r.Ok? ==> r.value["ssl.ca.location"] == config["ssl.ca.location"]
    ensures r.Ok? ==> r.value["group.id"] == Opt(config, "group.id") && r.value["client.id"] == Opt(config, "client.id")
    ensures r.Ok? ==> r.value["security.protocol"] == Opt(config, "security.protocol")
    ensures r.Ok? ==> r.value["session.timeout.ms"] == JInt(IntOf(Opt(config, "session.timeout.ms")).value)
    ensures r.Fail? ==> r.exc.Builtin? || (r.exc.ErrorHandler? && StartsWith(r.exc.msg, MissingKeyPrefix))
    ensures ReadLookups(config, environment).Fail? && ReadLookups(config, environment).exc.KeyError? ==>
              r == Fail(ErrorHandler(MissingKeyPrefix + Describe(ReadLookups(config, environment).exc)))
    ensures ReadLookups(config, environment).Fail? && !ReadLookups(config, environment).exc.KeyError? ==>
              r == Fail(ReadLookups(config, environment).exc)
  {
    match ReadLookups(config, environment)
    case Ok(v) => Ok(Assemble(v))
    case Fail(e) => if e.KeyError? then Fail(ErrorHandler(MissingKeyPrefix + Describe(e))) else Fail(e)
  }

  /** The three boolean settings read their strings asymmetrically. */
  lemma BooleanSettings(config: map<string, Json>, environment: string)
    requires BuildConsumerDict(config, environment).Ok?
    ensures var s := BuildConsumerDict(config, environment).value;
      && s["enable.auto.commit"].JBool?
      && (s["enable.auto.commit"].b <==> Lower(Opt(config, "enable.auto.commit").s) == "true")
      && s["enable.partition.eof"].JBool?
      && (!s["enable.partition.eof"].b <==> Lower(Opt(config, "enable.partition.eof").s) == "false")
      && s["api.version.request"].JBool?
      && (!s["api.version.request"].b <==> Lower(Opt(config, "api.version.request").s) == "false")
  {
  }

  /**
   * initialize_kafka_consumer: every failure, whether from building the
   * settings or from the client constructor (refusal), is wrapped once
   * more. On success the consumer is opened with the built settings.
   */
  function InitializeConsumer(config: map<string, Json>, environment: string, refusal: Option<string>)
    : (r: Try<map<string, Json>>)
    ensures r.Ok? <==> Complete(config, environment) && refusal.None?
    ensures r.Ok? ==> r.value.Keys == SettingNames
    ensures r.Ok? ==> r == BuildConsumerDict(config, environment)
    ensures r.Fail? ==> r.exc.ErrorHandler? && StartsWith(r.exc.msg, ConsumerInitPrefix)
    ensures BuildConsumerDict(config, environment).Fail? ==>
              r == Fail(ErrorHandler(ConsumerInitPrefix + Describe(BuildConsumerDict(config, environment).exc)))
    ensures BuildConsumerDict(config, environment).Ok? && refusal.Some? ==>
              r == Fail(ErrorHandler(ConsumerInitPrefix + refusal.value))
  {
    match BuildConsumerDict(config, environment)
    case Fail(e) => Fail(ErrorHandler(ConsumerInitPrefix + Describe(e)))
    case Ok(settings) =>
      if refusal.Some? then Fail(ErrorHandler(ConsumerInitPrefix + refusal.value)) else Ok(settings)
  }

  /**
   * A KeyError from any subscript of the settings literal names a key
   * missing where it was looked up, and the consumer reports that key,
   * quoted, behind both prefixes, whatever the client constructor would do.
   */
  lemma MissingKeyReported(config: map<string, Json>, environment: string, refusal: Option<string>, k: string)
    requires ReadLookups(config, environment) == Fail(KeyError(k))
    ensures MissingLookup(config, environment, k)
    ensures BuildConsumerDict(config, environment) == Fail(ErrorHandler(MissingKeyPrefix + Repr(k)))
    ensures InitializeConsumer(config, environment, refusal)
            == Fail(ErrorHandler(ConsumerInitPrefix + (MissingKeyPrefix + Repr(k))))
  {
    var b := BuildConsumerDict(config, environment);
    assert b == Fail(ErrorHandler(MissingKeyPrefix + Describe(KeyError(k))));
    assert Describe(b.exc) == MissingKeyPrefix + Repr(k);
    assert InitializeConsumer(config, environment, refusal) == Fail(ErrorHandler(ConsumerInitPrefix + Describe(b.exc)));
  }

  /** A missing subscripted key is reported by name, behind both prefixes. */
  lemma MissingServers(config: map<string, Json>, environment: string, refusal: Option<string>)
    requires "bootstrap.servers" !in config
    ensures BuildConsumerDict(config, environment)
            == Fail(ErrorHandler(MissingKeyPrefix + "'bootstrap.servers'"))
    ensures InitializeConsumer(config, environment, refusal)
            == Fail(ErrorHandler(ConsumerInitPrefix + MissingKeyPrefix + "'bootstrap.servers'"))
  {
    assert ReadLookups(config, environment) == Fail(KeyError("bootstrap.servers"));
    MissingKeyReported(config, environment, refusal, "bootstrap.servers");
    ServersText("bootstrap.servers");
  }

  /** The two reports of a missing servers key, spelled out. */
  lemma ServersText(k: string)
    requires k == "bootstrap.servers"
    ensures MissingKeyPrefix + Repr(k) == MissingKeyPrefix + "'bootstrap.servers'"
    ensures ConsumerInitPrefix + (MissingKeyPrefix + Repr(k))
            == ConsumerInitPrefix + MissingKeyPrefix + "'bootstrap.servers'"
  {
    QuotedServers(k);
    assert ConsumerInitPrefix + (MissingKeyPrefix + "'bootstrap.servers'")
        == ConsumerInitPrefix + MissingKeyPrefix + "'bootstrap.servers'";
  }

  /** An environment without brokers is reported as the missing key. */
  lemma MissingEnvironment(config: map<string, Json>, environment: string)
    requires "bootstrap.servers" in config && config["bootstrap.servers"].JDict?
    requires environment !in config["bootstrap.servers"].entries
    ensures BuildConsumerDict(config, environment)
            == Fail(ErrorHandler(MissingKeyPrefix + Repr(environment)))
  {
  }

  /**
   * An environment name holding a single quote is reported the way
   * repr() writes it: between double quotes.
   */
  lemma MissingQuotedEnvironment(config: map<string, Json>)
    requires "bootstrap.servers" in config && config["bootstrap.servers"].JDict?
    requires "o'neil" !in config["bootstrap.servers"].entries
    ensures BuildConsumerDict(config, "o'neil")
            == Fail(ErrorHandler(MissingKeyPrefix + "\"o'neil\""))
  {
    QuotedApostrophe("o'neil");
  }

  /** repr() of the servers key: the key between single quotes. */
  lemma QuotedServers(k: string)
    requires k == "bootstrap.servers"
    ensures Repr(k) == "'bootstrap.servers'"
  {
    ReprPlain(k);
    ServersLiteral();
  }

  /** Proof helper: the literal concatenation, kept apart so the solver meets it once. */
  lemma ServersLiteral()
    ensures "'" + "bootstrap.servers" + "'" == "'bootstrap.servers'"
  {
  }

  /** repr() of a name holding a single quote: the name between double quotes. */
  lemma QuotedApostrophe(k: string)
    requires k == "o'neil"
    ensures Repr(k) == "\"o'neil\""
  {
    ReprApostrophe(k);
    ApostropheLiteral();
  }

  /** Proof helper: the literal concatenation, kept apart so the solver meets it once. */
  lemma ApostropheLiteral()
    ensures "\"" + "o'neil" + "\"" == "\"o'neil\""
  {
  }

  /**
   * A key read with config.get is no KeyError when missing: None reaches
   * .lower() and the AttributeError escapes the missing-key handler, so
   * only the outer prefix names the failure.
   */
  lemma MissingAutoCommit(config: map<string, Json>, environment: string)
    requires HasNested(config, "bootstrap.servers", environment)
    requires "enable.auto.commit" !in config
    ensures BuildConsumerDict(config, environment) == Fail(NoAttribute(JNull, "lower"))
    ensures InitializeConsumer(config, environment, None)
            == Fail(ErrorHandler(ConsumerInitPrefix + NoAttribute(JNull, "lower").text))
  {
    var e := NoAttribute(JNull, "lower");
    assert ReadConnection(config, environment) == Fail(e);
    assert ReadLookups(config, environment) == Fail(e);
  }

  /** session.timeout.ms is int() of the configured value, a decimal string included. */
  lemma SessionTimeoutParsed(config: map<string, Json>, environment: string, w1: string, n: int, w2: string)
    requires Complete(config, environment)
    requires AllSpace(w1) && AllSpace(w2)
    requires config["session.timeout.ms"] == JStr(w1 + IntText(n) + w2)
    ensures BuildConsumerDict(config, environment).value["session.timeout.ms"] == JInt(n)
  {
    ParseIntPadded(w1, n, w2);
  }
}

=== FILE: py_text.dfy ===
/**
 * The string operations of the Python runtime that the search engine
 * relies on: str.strip(), str.lower(), str.startswith(), the substring
 * test `needle in haystack`, and int()/str() on decimal integers.
 */
module PyText {

  /** Characters for which Python's str.isspace() holds. */
  predicate IsSpace(c: char) {
    || c == ' '
    || '\t' <= c <= '\r'
    || '\U{1c}' <= c <= '\U{1f}'
    || c == '\U{85}' || c == '\U{a0}' || c == '\U{1680}'
    || '\U{2000}' <= c <= '\U{200a}'
    || c == '\U{2028}' || c == '\U{2029}' || c == '\U{202f}'
    || c == '\U{205f}' || c == '\U{3000}'
  }

  /** True when every character of w is whitespace. */
  predicate AllSpace(w: string) {
    forall k :: 0 <= k < |w| ==> IsSpace(w[k])
  }

  /** w has no whitespace at either end. */
  predicate Unpadded(w: string) {
    w == [] || (!IsSpace(w[0]) && !IsSpace(w[|w| - 1]))
  }

  /** s.lstrip(): the suffix of s left after dropping leading whitespace. */
  function StripLeft(s: string): (r: string)
    ensures |r| <= |s| && r == s[|s| - |r|..]
    ensures forall k :: 0 <= k < |s| - |r| ==> IsSpace(s[k])
    ensures r == [] || !IsSpace(r[0])
  {
    if |s| > 0 && IsSpace(s[0]) then
      var r := StripLeft(s[1..]);
      assert s[1..][|s| - 1 - |r|..] == s[|s| - |r|..];
      r
    else s
  }

  /** s.rstrip(): the prefix of s left after dropping trailing whitespace. */
  function StripRight(s: string): (r: string)
    ensures |r| <= |s| && r == s[..|r|]
    ensures forall k :: |r| <= k < |s| ==> IsSpace(s[k])
    ensures r == [] || !IsSpace(r[|r| - 1])
  {
    if |s| > 0 && IsSpace(s[|s| - 1]) then
      var r := StripRight(s[..|s| - 1]);
      assert s[..|s| - 1][..|r|] == s[..|r|];
      r
    else s
  }

  /** s.strip(): s without its leading and trailing whitespace. */
  function Strip(s: string): (r: string)
    ensures Unpadded(r)
    ensures r == [] <==> AllSpace(s)
  {
    var l := StripLeft(s);
    var r := StripRight(l);
    assert r == [] ==> l == [];
    r
  }

  lemma {:induction false} StripLeftPadded(w: string, x: string)
    requires AllSpace(w)
    requires x == [] || !IsSpace(x[0])
    ensures StripLeft(w + x) == x
    decreases |w|
  {
    if w != [] {
      assert (w + x)[1..] == w[1..] + x;
      StripLeftPadded(w[1..], x);
    } else {
      assert w + x == x;
    }
  }

  lemma {:induction false} StripRightPadded(x: string, w: string)
    requires AllSpace(w)
    requires x == [] || !IsSpace(x[|x| - 1])
    ensures StripRight(x + w) == x
    decreases |w|
  {
    if w != [] {
      assert (x + w)[..|x + w| - 1] == x + w[..|w| - 1];
      StripRightPadded(x, w[..|w| - 1]);
    } else {
      assert x + w == x;
    }
  }

  /**
   * Strip removes exactly the whitespace padding around a text whose own
   * ends are not whitespace: the independent description of str.strip().
   */
  lemma StripPadded(w1: string, x: string, w2: string)
    requires AllSpace(w1) && AllSpace(w2)
    requires Unpadded(x)
    ensures Strip(w1 + x + w2) == x
  {
    if x == [] {
      assert w1 + x + w2 == w1 + w2;
      assert AllSpace(w1 + w2);
    } else {
      assert w1 + x + w2 == w1 + (x + w2);
      assert (x + w2)[0] == x[0];
      StripLeftPadded(w1, x + w2);
      StripRightPadded(x, w2);
    }
  }

  /** Stripping twice is stripping once. */
  lemma StripIdempotent(s: string)
    ensures Strip(Strip(s)) == Strip(s)
  {
    var r := Strip(s);
    assert StripLeft(r) == r;
    assert StripRight(r) == r;
  }

  /** Python's str.lower() restricted to the ASCII letters. */
  function LowerChar(c: char): char {
    if 'A' <= c <= 'Z' then (c as int + 32) as char else c
  }

  /** s.lower(), character by character. */
  function Lower(s: string): (r: string)
    ensures |r| == |s|
    ensures forall i :: 0 <= i < |s| ==> r[i] == LowerChar(s[i])
  {
    if s == [] then [] else [LowerChar(s[0])] + Lower(s[1..])
  }

  /** No ASCII capital letter occurs in s. */
  predicate IsLowered(s: string) {
    forall i :: 0 <= i < |s| ==> !('A' <= s[i] <= 'Z')
  }

  /** Lower-casing leaves no capital behind and is idempotent. */
  lemma LowerNormalises(s: string)
    ensures IsLowered(Lower(s))
    ensures Lower(Lower(s)) == Lower(s)
  {
  }

  /** Lower-casing never moves whitespace, so it commutes with stripping. */
  lemma LowerKeepsSpace(c: char)
    ensures IsSpace(LowerChar(c)) <==> IsSpace(c)
  {
  }

  /** s.strip().lower() is lower-case, unpadded, and empty just for blank s. */
  lemma LowerOfStripped(s: string)
    ensures IsLowered(Lower(Strip(s)))
    ensures Unpadded(Lower(Strip(s)))
    ensures Lower(Strip(s)) == [] <==> AllSpace(s)
  {
    var t := Strip(s);
    LowerNormalises(t);
    if t != [] {
      LowerKeepsSpace(t[0]);
      LowerKeepsSpace(t[|t| - 1]);
    }
  }

  /** Lower-casing leaves lower-case text alone. */
  lemma LowerOfLowered(s: string)
    requires IsLowered(s)
    ensures Lower(s) == s
  {
    assert forall i :: 0 <= i < |s| ==> Lower(s)[i] == s[i];
  }

  /** A lower-case word without padding is its own normalised form. */
  lemma NormalisedWord(s: string)
    requires s != [] && !IsSpace(s[0]) && !IsSpace(s[|s| - 1]) && IsLowered(s)
    ensures Lower(Strip(s)) == s
  {
    assert [] + s + [] == s;
    StripPadded([], s, []);
    LowerOfLowered(s);
  }

  /** s.startswith(prefix). */
  predicate StartsWith(s: string, prefix: string) {
    |prefix| <= |s| && s[..|prefix|] == prefix
  }

  /** `needle in haystack` on Python strings: a substring test. */
  predicate Contains(haystack: string, needle: string)
    decreases |haystack|
  {
    StartsWith(haystack, needle) || (|haystack| > 0 && Contains(haystack[1..], needle))
  }

  /** needle occurs in haystack starting at offset i. */
  predicate OccursAt(haystack: string, needle: string, i: int) {
    0 <= i && i + |needle| <= |haystack| && haystack[i..i + |needle|] == needle
  }

  /** The substring test holds exactly when needle occurs at some offset. */
  lemma {:induction false} ContainsIff(haystack: string, needle: string)
    ensures Contains(haystack, needle) <==> exists i :: OccursAt(haystack, needle, i)
    decreases |haystack|
  {
    if StartsWith(haystack, needle) {
      assert OccursAt(haystack, needle, 0);
    } else if |haystack| > 0 {
      ContainsIff(haystack[1..], needle);
      if Contains(haystack[1..], needle) {
        var i :| OccursAt(haystack[1..], needle, i);
        assert haystack[1..][i..i + |needle|] == haystack[i + 1..i + 1 + |needle|];
        assert OccursAt(haystack, needle, i + 1);
      }
      if i :| OccursAt(haystack, needle, i) {
        assert i != 0;
        assert haystack[1..][i - 1..i - 1 + |needle|] == haystack[i..i + |needle|];
        assert OccursAt(haystack[1..], needle, i - 1);
      }
    } else {
      assert forall i :: OccursAt(haystack, needle, i) ==> i == 0;
    }
  }

  /** Every string contains the empty string and itself. */
  lemma ContainsTrivial(s: string)
    ensures Contains(s, "") && Contains(s, s)
  {
    assert StartsWith(s, "");
    assert StartsWith(s, s);
  }

  // ---- decimal integers: str(n) and int(s) ----

  predicate IsDigit(c: char) {
    '0' <= c <= '9'
  }

  predicate AllDigits(s: string) {
    forall i :: 0 <= i < |s| ==> IsDigit(s[i])
  }

  function DigitChar(d: nat): (c: char)
    requires d < 10
    ensures IsDigit(c)
  {
    (d + '0' as int) as char
  }

  /** The value of a string of decimal digits, most significant first. */
  function DigitsValue(ds: string): nat
    requires AllDigits(ds)
    decreases |ds|
  {
    if ds == [] then 0
    else DigitsValue(ds[..|ds| - 1]) * 10 + (ds[|ds| - 1] as int - '0' as int)
  }

  /** str(n) for a natural number: its shortest decimal digit string. */
  function NatText(n: nat): (r: string)
    ensures |r| > 0 && AllDigits(r)
    decreases n
  {
    if n < 10 then [DigitChar(n)] else NatText(n / 10) + [DigitChar(n % 10)]
  }

  /** str(n). */
  function IntText(n: int): (r: string)
    ensures |r| > 0
  {
    if n < 0 then "-" + NatText(-n) else NatText(n)
  }

  /**
   * int(s) on a string: surrounding whitespace, an optional sign and at
   * least one decimal digit; None where Python raises ValueError.
   */
  function ParseInt(s: string): (r: Option<int>)
    ensures r.Some? ==> Strip(s) != []
  {
    var t := Strip(s);
    if |t| > 1 && (t[0] == '-' || t[0] == '+') && AllDigits(t[1..]) then
      var v: int := DigitsValue(t[1..]);
      Some(if t[0] == '-' then -v else v)
    else if |t| > 0 && AllDigits(t) then Some(DigitsValue(t))
    else None
  }

  datatype Option<+T> = None | Some(value: T)

  lemma {:induction false} DigitsRoundTrip(n: nat)
    ensures DigitsValue(NatText(n)) == n
    decreases n
  {
    if n >= 10 {
      DigitsRoundTrip(n / 10);
      var ds := NatText(n / 10) + [DigitChar(n % 10)];
      assert ds[..|ds| - 1] == NatText(n / 10);
    }
  }

  lemma DigitNotSpace(c: char)
    requires IsDigit(c) || c == '-'
    ensures !IsSpace(c)
  {
  }

  /** str(n) carries no whitespace at its ends, so strip() leaves it alone. */
  lemma StripIntText(n: int)
    ensures Strip(IntText(n)) == IntText(n)
  {
    var t := IntText(n);
    DigitNotSpace(t[0]);
    DigitNotSpace(t[|t| - 1]);
    assert [] + t + [] == t;
    StripPadded([], t, []);
  }

  /** int(str(n)) == n: parsing undoes printing. */
  lemma ParseIntText(n: int)
    ensures ParseInt(IntText(n)) == Some(n)
  {
    var t := IntText(n);
    StripIntText(n);
    if n < 0 {
      DigitsRoundTrip(-n);
      assert t[1..] == NatText(-n);
    } else {
      DigitsRoundTrip(n);
    }
  }

  /** int() tolerates whitespace padding around the digits, as Python does. */
  lemma ParseIntPadded(w1: string, n: int, w2: string)
    requires AllSpace(w1) && AllSpace(w2)
    ensures ParseInt(w1 + IntText(n) + w2) == Some(n)
  {
    var t := IntText(n);
    DigitNotSpace(t[0]);
    DigitNotSpace(t[|t| - 1]);
    StripPadded(w1, t, w2);
    StripIntText(n);
    ParseIntText(n);
  }

  // ---- repr() of a string ----

  /** The lower-case hexadecimal digit of d, as repr() writes it. */
  function HexDigit(d: nat): (c: char)
    requires d < 16
    ensures HexValue(c) == d
  {
    if d < 10 then (d + '0' as int) as char else (d - 10 + 'a' as int) as char
  }

  /** The value of a lower-case hexadecimal digit; 0 for any other character. */
  function HexValue(c: char): (v: nat)
    ensures v < 16
  {
    if '0' <= c <= '9' then c as int - '0' as int
    else if 'a' <= c <= 'f' then c as int - 'a' as int + 10
    else 0
  }

  /**
   * The characters repr() writes as \xhh: the C0 controls other than tab,
   * newline and carriage return, DEL, and the unprintable Latin-1
   * characters (U+0080 to U+00A0 and the soft hyphen U+00AD).
   */
  predicate HexEscaped(c: char) {
    || (c < ' ' && c != '\t' && c != '\n' && c != '\r')
    || '\U{7f}' <= c <= '\U{a0}'
    || c == '\U{ad}'
  }

  /** c appears unchanged inside a literal quoted with q. */
  predicate Unescaped(c: char, q: char) {
    c != q && c != '\\' && c != '\t' && c != '\n' && c != '\r' && !HexEscaped(c)
  }

  /** The quote repr(s) uses: double quotes only for text with a single quote and no double quote. */
  function ReprQuote(s: string): (q: char)
    ensures q == '\'' || q == '"'
  {
    if '\'' in s && '"' !in s then '"' else '\''
  }

  /** One character of s as repr() writes it inside quote q. */
  function ReprChar(c: char, q: char): (r: string)
    ensures Unescaped(c, q) <==> r == [c]
    ensures !Unescaped(c, q) ==> |r| >= 2 && r[0] == '\\'
  {
    if c == q || c == '\\' then ['\\', c]
    else if c == '\t' then "\\t"
    else if c == '\n' then "\\n"
    else if c == '\r' then "\\r"
    else if HexEscaped(c) then ['\\', 'x', HexDigit(c as int / 16), HexDigit(c as int % 16)]
    else [c]
  }

  /** The text between the quotes of repr(s). */
  function ReprBody(s: string, q: char): (r: string)
    ensures |r| >= |s|
  {
    if s == [] then [] else ReprChar(s[0], q) + ReprBody(s[1..], q)
  }

  /** repr(s) of a str, which is also what str() gives for KeyError(s). */
  function Repr(s: string): (r: string)
    ensures |r| >= |s| + 2
    ensures r[0] == ReprQuote(s) && r[|r| - 1] == ReprQuote(s)
    ensures r[1..|r| - 1] == ReprBody(s, ReprQuote(s))
  {
    var q := ReprQuote(s);
    var r := [q] + ReprBody(s, q) + [q];
    assert r[1..|r| - 1] == ReprBody(s, q);
    r
  }

  /** The first n characters of t, as a `%.nR` or `%.ns` format writes them. */
  function Clip(t: string, n: nat): (r: string)
    ensures |r| == if |t| <= n then |t| else n
    ensures r == t[..|r|]
  {
    if |t| <= n then t else t[..n]
  }

  /** Reads the body of a Python string literal back, undoing the escapes repr() writes. */
  function Unescape(t: string): string
    decreases |t|
  {
    if t == [] then []
    else if t[0] == '\\' && |t| >= 2 then
      if t[1] == 't' then "\t" + Unescape(t[2..])
      else if t[1] == 'n' then "\n" + Unescape(t[2..])
      else if t[1] == 'r' then "\r" + Unescape(t[2..])
      else if t[1] == 'x' && |t| >= 4 then [(HexValue(t[2]) * 16 + HexValue(t[3])) as char] + Unescape(t[4..])
      else [t[1]] + Unescape(t[2..])
    else [t[0]] + Unescape(t[1..])
  }

  /** Reading back one written character gives that character. */
  lemma UnescapeChar(c: char, q: char, rest: string)
    requires q == '\'' || q == '"'
    ensures Unescape(ReprChar(c, q) + rest) == [c] + Unescape(rest)
  {
    var t := ReprChar(c, q) + rest;
    if c == q || c == '\\' || c == '\t' || c == '\n' || c == '\r' {
      assert t[2..] == rest;
    } else if HexEscaped(c) {
      var n := c as int;
      assert n / 16 * 16 + n % 16 == n;
      assert t[2] == HexDigit(n / 16) && t[3] == HexDigit(n % 16);
      assert t[4..] == rest;
    } else {
      assert t[1..] == rest;
    }
  }

  lemma {:induction false} UnescapeBody(s: string, q: char)
    requires q == '\'' || q == '"'
    ensures Unescape(ReprBody(s, q)) == s
    decreases |s|
  {
    if s != [] {
      UnescapeChar(s[0], q, ReprBody(s[1..], q));
      UnescapeBody(s[1..], q);
    }
  }

  /** repr() loses nothing: reading its body back gives the string. */
  lemma ReprReadBack(s: string)
    ensures Unescape(Repr(s)[1..|Repr(s)| - 1]) == s
  {
    UnescapeBody(s, ReprQuote(s));
  }

  lemma {:induction false} ReprBodyUnescaped(s: string, q: char)
    requires forall i :: 0 <= i < |s| ==> Unescaped(s[i], q)
    ensures ReprBody(s, q) == s
    decreases |s|
  {
    if s != [] {
      ReprBodyUnescaped(s[1..], q);
      assert [s[0]] + s[1..] == s;
    }
  }

  /** Text needing no escape is written between single quotes. */
  lemma ReprPlain(s: string)
    requires forall i :: 0 <= i < |s| ==> Unescaped(s[i], '\'')
    ensures Repr(s) == "'" + s + "'"
  {
    assert '\'' !in s;
    ReprBodyUnescaped(s, '\'');
  }

  /** Text holding a single quote and no double quote is written between double quotes, unescaped. */
  lemma ReprApostrophe(s: string)
    requires '\'' in s && '"' !in s
    requires forall i :: 0 <= i < |s| ==> Unescaped(s[i], '"')
    ensures Repr(s) == "\"" + s + "\""
  {
    ReprBodyUnescaped(s, '"');
  }
}

=== FILE: py_values.dfy ===
/**
 * Python values and exceptions as the search engine sees them: the
 * JSON-shaped values of requests, YAML configuration and decoded
 * payloads, the exceptions it raises or catches, and the few Python
 * built-ins (truthiness, dict.get, subscripting, int(), str.strip())
 * whose failure modes decide which error message a caller gets.
 */
module PyValues {
  import opened PyText

  newtype byte = x: int | 0 <= x < 256

  /** Raw bytes of a message key or value. */
  type Bytes = seq<byte>

  /**
   * A JSON / YAML value: None, bool, int, float, str, list or dict. A
   * float is the real number it denotes (no NaN or infinity).
   */
  datatype Json =
    | JNull
    | JBool(b: bool)
    | JInt(i: int)
    | JFloat(f: real)
    | JStr(s: string)
    | JList(items: seq<Json>)
    | JDict(entries: map<string, Json>)

  /**
   * The exceptions that matter: the application's own ErrorHandler, the
   * KeyError of a missing dictionary key, and any other built-in
   * exception, known by the text str(e) gives.
   */
  datatype Exc =
    | ErrorHandler(msg: string)
    | KeyError(key: string)
    | Builtin(text: string)

  /** str(e). A KeyError with one argument renders it as repr(key). */
  function Describe(e: Exc): (t: string)
    ensures e.ErrorHandler? ==> t == e.msg
    ensures e.Builtin? ==> t == e.text
    ensures e.KeyError? ==> |t| >= 2 && t[0] == t[|t| - 1] && (t[0] == '\'' || t[0] == '"')
    ensures e.KeyError? ==> Unescape(t[1..|t| - 1]) == e.key
  {
    match e
    case ErrorHandler(m) => m
    case KeyError(k) => ReprReadBack(k); Repr(k)
    case Builtin(t) => t
  }

  /** The result of Python code that either returns a value or raises. */
  datatype Try<+T> = Ok(value: T) | Fail(exc: Exc) {
    predicate IsFailure() {
      Fail?
    }

    function PropagateFailure<U>(): Try<U>
      requires Fail?
    {
      Fail(exc)
    }

    function Extract(): T
      requires Ok?
    {
      value
    }
  }

  /**
   * The result of a call into code outside the model (a JSON parser, a
   * byte decoder, a deserializer, a broker client): a value, or the text
   * of the built-in exception it raised.
   */
  datatype Attempt<+T> = Got(value: T) | Threw(text: string)

  /** A foreign call's failure surfaces as a built-in exception. */
  function Lift<T>(a: Attempt<T>): (r: Try<T>)
    ensures r.Ok? <==> a.Got?
    ensures r.Fail? ==> r.exc == Builtin(a.text)
  {
    match a
    case Got(v) => Ok(v)
    case Threw(t) => Fail(Builtin(t))
  }

  /** The result of a loop that may also poll forever. */
  datatype Outcome<+T> = Returns(value: T) | Raises(exc: Exc) | Hangs

  /** Python truthiness: None, False, 0 and empty containers are false. */
  predicate Truthy(v: Json) {
    match v
    case JNull => false
    case JBool(b) => b
    case JInt(i) => i != 0
    case JFloat(f) => f != 0.0
    case JStr(s) => s != ""
    case JList(items) => items != []
    case JDict(entries) => entries != map[]
  }

  /** type(v).__name__ */
  function TypeName(v: Json): string {
    match v
    case JNull => "NoneType"
    case JBool(_) => "bool"
    case JInt(_) => "int"
    case JFloat(_) => "float"
    case JStr(_) => "str"
    case JList(_) => "list"
    case JDict(_) => "dict"
  }

  /** The AttributeError of calling a str method on something else. */
  function NoAttribute(v: Json, name: string): Exc {
    Builtin("'" + TypeName(v) + "' object has no attribute '" + name + "'")
  }

  /** d.get(k, default) */
  function Get(d: map<string, Json>, k: string, default: Json): (r: Json)
    ensures k !in d ==> r == default
    ensures k in d ==> r == d[k]
  {
    if k in d then d[k] else default
  }

  /** d[k] on a dict: KeyError when the key is missing. */
  function Index(d: map<string, Json>, k: string): (r: Try<Json>)
    ensures r.Ok? <==> k in d
    ensures r.Ok? ==> r.value == d[k]
    ensures r.Fail? ==> r.exc == KeyError(k)
  {
    if k in d then Ok(d[k]) else Fail(KeyError(k))
  }

  /**
   * v[k] with a string key on any value: a KeyError only when v is a dict
   * without the key, a TypeError for every other kind of value.
   */
  function Subscript(v: Json, k: string): (r: Try<Json>)
    ensures r.Ok? <==> v.JDict? && k in v.entries
    ensures r.Ok? ==> r.value == v.entries[k]
    ensures r.Fail? && v.JDict? ==> r.exc == KeyError(k)
    ensures r.Fail? && !v.JDict? ==> r.exc.Builtin?
  {
    match v
    case JDict(d) => Index(d, k)
    case JStr(_) => Fail(Builtin("string indices must be integers"))
    case JList(_) => Fail(Builtin("list indices must be integers or slices, not str"))
    case _ => Fail(Builtin("'" + TypeName(v) + "' object is not subscriptable"))
  }

  /** v[k] = x: only a dict accepts a string key. */
  function SetItem(v: Json, k: string, x: Json): (r: Try<Json>)
    ensures r.Ok? <==> v.JDict?
    ensures r.Ok? ==> r.value == JDict(v.entries[k := x])
    ensures r.Fail? ==> r.exc.Builtin?
  {
    match v
    case JDict(d) => Ok(JDict(d[k := x]))
    case JList(_) => Fail(Builtin("list indices must be integers or slices, not str"))
    case _ => Fail(Builtin("'" + TypeName(v) + "' object does not support item assignment"))
  }

  /** v.lower(): only strings have it. */
  function LowerOf(v: Json): (r: Try<string>)
    ensures r.Ok? <==> v.JStr?
    ensures r.Ok? ==> r.value == Lower(v.s)
    ensures r.Fail? ==> r.exc.Builtin?
  {
    if v.JStr? then Ok(Lower(v.s)) else Fail(NoAttribute(v, "lower"))
  }

  /** v.strip().lower(): a normalised string, or an AttributeError. */
  function Normalise(v: Json): (r: Try<string>)
    ensures r.Ok? <==> v.JStr?
    ensures r.Ok? ==> IsLowered(r.value)
    ensures r.Ok? ==> Unpadded(r.value)
    ensures r.Ok? ==> (r.value == [] <==> AllSpace(v.s))
    ensures r.Ok? ==> r.value == Lower(Strip(v.s))
    ensures r.Fail? ==> r.exc.Builtin?
    ensures r.Fail? ==> r.exc == NoAttribute(v, "strip")
  {
    if v.JStr? then
      LowerOfStripped(v.s);
      Ok(Lower(Strip(v.s)))
    else Fail(NoAttribute(v, "strip"))
  }

  const IntArgumentMessage := "int() argument must be a string, a bytes-like object or a real number, not '"
  const InvalidLiteralMessage := "invalid literal for int() with base 10: "

  /** int(f) of a float: rounds toward zero. */
  function Truncate(f: real): (n: int)
    ensures 0.0 <= f ==> n as real <= f < n as real + 1.0
    ensures f < 0.0 ==> n as real - 1.0 < f <= n as real
  {
    if 0.0 <= f then f.Floor else -((-f).Floor)
  }

  /** int(v) */
  function IntOf(v: Json): (r: Try<int>)
    ensures v.JInt? ==> r == Ok(v.i)
    ensures v.JBool? ==> r == Ok(if v.b then 1 else 0)
    ensures v.JFloat? ==> r == Ok(Truncate(v.f))
    ensures v.JStr? ==> (r.Ok? <==> ParseInt(v.s).Some?)
    ensures v.JStr? && r.Ok? ==> ParseInt(v.s) == Some(r.value)
    ensures v.JNull? || v.JList? || v.JDict? ==> r.Fail?
    ensures r.Fail? ==> r.exc.Builtin?
    ensures v.JStr? && r.Fail? ==> r.exc.text == InvalidLiteralMessage + Clip(Repr(v.s), 200)
  {
    match v
    case JInt(i) => Ok(i)
    case JBool(b) => Ok(if b then 1 else 0)
    case JFloat(f) => Ok(Truncate(f))
    case JStr(s) =>
      (match ParseInt(s)
       case Some(n) => Ok(n)
       case None => Fail(Builtin(InvalidLiteralMessage + Clip(Repr(s), 200))))
    case _ =>
      Fail(Builtin(IntArgumentMessage + TypeName(v) + "'"))
  }

  /** int("a'b") names the text as repr() writes it: between double quotes. */
  lemma InvalidLiteralQuoted(s: string)
    requires s == "a'b"
    ensures IntOf(JStr(s)) == Fail(Builtin("invalid literal for int() with base 10: \"a'b\""))
  {
    NotDecimal(s);
    QuotedLiteral(s);
    InvalidLiteralText();
  }

  /** Proof helper: "a'b" is no decimal literal. */
  lemma NotDecimal(s: string)
    requires s == "a'b"
    ensures ParseInt(s).None?
  {
    StripPadded([], s, []);
    assert [] + s + [] == s;
    assert !AllDigits(s[1..]) && !AllDigits(s);
  }

  /** Proof helper: repr() of "a'b", short enough to be kept whole. */
  lemma QuotedLiteral(s: string)
    requires s == "a'b"
    ensures Clip(Repr(s), 200) == "\"" + "a'b" + "\""
  {
    ReprApostrophe(s);
  }

  /** Proof helper: the literal concatenation, kept apart so the solver meets it once. */
  lemma InvalidLiteralText()
    ensures InvalidLiteralMessage + ("\"" + "a'b" + "\"") == "invalid literal for int() with base 10: \"a'b\""
  {
  }
}

=== FILE: request_handler.dfy ===
/**
 * RequestHandler's search transaction: one KafkaReader for the request,
 * every JSON topic scanned in turn, an AvroClient only when Avro topics
 * were asked for, then the reader closed. Each topic's outcome lands
 * under its own prefixed key of the response; a failure is written into
 * that topic's slot and the next topic is scanned. The broker, the
 * schema registry and the decoders are inputs, and the calls made on them
 * are returned as a trace.
 */
module RequestHandler {
  import opened PyText
  import opened PyValues
  import opened KafkaClient
  import opened KafkaManager
  import opened RequestParams

  const JsonPrefix := "JSON_TOPIC_"
  const AvroPrefix := "AVRO_TOPIC_"
  const ErrorKey := "ERROR"
  const ReaderErrorPrefix := "Error initializing KafkaReader(): "
  const TopicListErrorPrefix := "Error retrieving list of available topics. Check Kafka connection settings. Error: "
  const JsonSearchErrorPrefix := "Error searching topic. "
  const AvroSearchErrorPrefix := "Error searching avro topic.  "
  const AvroClientErrorPrefix := "Unable to initialize AvroClient(): "
  const DeserializerErrorPrefix := "Unable to load deserializer for topic: "
  const DeserializerErrorMiddle := ". Please check avro schema provided in avro schemas directory:  "
  const CloseErrorPrefix := "Error closing connection to kafka broker: "

  /** A response slot: a scan's list, an error string, or None. */
  datatype Answer = Listing(items: seq<Item>) | Text(text: string) | Nothing

  type Response = map<string, Answer>

  /**
   * The broker as the reader sees it: the main configuration's connection
   * details, the failure text of the Consumer constructor if it refuses
   * the settings, what list_topics(...).topics delivers, and the failure
   * text of consumer.close() if it fails.
   */
  datatype Broker = Broker(
    connection: map<string, Json>, refusal: Option<string>,
    listing: Attempt<map<string, seq<Partition>>>, closeFailure: Option<string>)

  /**
   * The schema registry: the failure text of the registry client if it
   * cannot be created, and per topic the failure text of creating its
   * deserializer.
   */
  datatype Registry = Registry(clientFailure: Option<string>, schemaFailures: map<string, string>)

  datatype Services = Services(broker: Broker, registry: Registry, codec: Codec)

  /** The calls the transaction makes on its collaborators, in order. */
  datatype Call =
    | OpenReader(environment: string)
    | Scan(topic: string, kind: string)
    | OpenAvroClient(environment: string)
    | LoadDeserializer(topic: string)
    | CloseReader

  /**
   * KafkaReader(environment): the consumer, then its topic listing; either
   * failure is wrapped once more.
   */
  function OpenTopics(b: Broker, environment: string): (r: Try<map<string, seq<Partition>>>)
    ensures r.Ok? <==> Complete(b.connection, environment) && b.refusal.None? && b.listing.Got?
    ensures r.Ok? ==> r.value == b.listing.value
    ensures r.Fail? ==> r.exc.ErrorHandler? && StartsWith(r.exc.msg, ReaderErrorPrefix)
    ensures InitializeConsumer(b.connection, environment, b.refusal).Fail? ==>
              r == Fail(ErrorHandler(ReaderErrorPrefix + Describe(InitializeConsumer(b.connection, environment, b.refusal).exc)))
    ensures InitializeConsumer(b.connection, environment, b.refusal).Ok? && b.listing.Threw? ==>
              r == Fail(ErrorHandler(ReaderErrorPrefix + (TopicListErrorPrefix + b.listing.text)))
  {
    match InitializeConsumer(b.connection, environment, b.refusal)
    case Fail(e) => Fail(ErrorHandler(ReaderErrorPrefix + Describe(e)))
    case Ok(_) =>
      match b.listing
      case Got(topics) => Ok(topics)
      case Threw(t) => Fail(ErrorHandler(ReaderErrorPrefix + (TopicListErrorPrefix + t)))
  }

  /**
   * A configuration missing a subscripted key stops the reader with the
   * three nested reports: the reader's, the consumer's and the key's.
   */
  lemma ReaderReportsMissingKey(b: Broker, environment: string, k: string)
    requires ReadLookups(b.connection, environment) == Fail(KeyError(k))
    ensures OpenTopics(b, environment)
            == Fail(ErrorHandler(ReaderErrorPrefix + (ConsumerInitPrefix + (MissingKeyPrefix + Repr(k)))))
  {
    MissingKeyReported(b.connection, environment, b.refusal, k);
  }

  /** The scan request for one topic, from validated params. */
  function QueryFor(p: Params, topic: string, kind: string): Query
    requires p.search.Some?
  {
    Query(topic, kind, p.search.value, p.includeMetadata, p.delimiter)
  }

  /** The slot of one JSON topic: its list, or the error text of its scan. */
  function JsonAnswer(p: Params, codec: Codec, topics: map<string, seq<Partition>>, t: string)
    : (a: Outcome<Answer>)
    requires p.search.Some?
    ensures t !in topics ==> a == Returns(Text(JsonSearchErrorPrefix + AccessErrorPrefix + t))
    ensures a.Returns? && a.value.Listing? ==> SearchForMsgs(QueryFor(p, t, "json"), codec, topics) == Returns(a.value.items)
    ensures a.Returns? ==> a.value.Listing? || (a.value.Text? && StartsWith(a.value.text, JsonSearchErrorPrefix))
    ensures a.Hangs? <==> SearchForMsgs(QueryFor(p, t, "json"), codec, topics).Hangs?
    ensures SearchForMsgs(QueryFor(p, t, "json"), codec, topics).Returns? ==>
              a == Returns(Listing(SearchForMsgs(QueryFor(p, t, "json"), codec, topics).value))
    ensures SearchForMsgs(QueryFor(p, t, "json"), codec, topics).Raises? ==>
              a == Returns(Text(JsonSearchErrorPrefix + Describe(SearchForMsgs(QueryFor(p, t, "json"), codec, topics).exc)))
  {
    match SearchForMsgs(QueryFor(p, t, "json"), codec, topics)
    case Returns(items) => Returns(Listing(items))
    case Raises(e) =>
      assert JsonSearchErrorPrefix + AccessErrorPrefix + t == JsonSearchErrorPrefix + (AccessErrorPrefix + t);
      Returns(Text(JsonSearchErrorPrefix + Describe(e)))
    case Hangs => Hangs
  }

  /** What load_deserializer raises for a topic whose schema the registry rejects. */
  function DeserializerError(t: string, failure: string): string {
    DeserializerErrorPrefix + t + DeserializerErrorMiddle + failure
  }

  /**
   * The slot of one Avro topic: None (the value of list.insert) when the
   * topic has no configured schema, otherwise its list or the error text
   * of loading its deserializer or scanning it.
   */
  function AvroAnswer(p: Params, config: Config, s: Services, topics: map<string, seq<Partition>>, t: string)
    : (a: Outcome<Answer>)
    requires p.search.Some?
    ensures t !in config.avroTopics ==> a == Returns(Nothing)
    ensures t in config.avroTopics && t in s.registry.schemaFailures ==>
              a == Returns(Text(AvroSearchErrorPrefix + DeserializerError(t, s.registry.schemaFailures[t])))
    ensures a.Returns? && a.value.Listing? ==>
              t in config.avroTopics && SearchForMsgs(QueryFor(p, t, "avro"), s.codec, topics) == Returns(a.value.items)
    ensures a.Returns? && a.value.Text? ==> StartsWith(a.value.text, AvroSearchErrorPrefix)
    ensures a.Hangs? <==>
      t in config.avroTopics && t !in s.registry.schemaFailures
      && SearchForMsgs(QueryFor(p, t, "avro"), s.codec, topics).Hangs?
    ensures t in config.avroTopics && t !in s.registry.schemaFailures
            && SearchForMsgs(QueryFor(p, t, "avro"), s.codec, topics).Returns? ==>
              a == Returns(Listing(SearchForMsgs(QueryFor(p, t, "avro"), s.codec, topics).value))
    ensures t in config.avroTopics && t !in s.registry.schemaFailures
            && SearchForMsgs(QueryFor(p, t, "avro"), s.codec, topics).Raises? ==>
              a == Returns(Text(AvroSearchErrorPrefix + Describe(SearchForMsgs(QueryFor(p, t, "avro"), s.codec, topics).exc)))
    ensures t in config.avroTopics && t !in s.registry.schemaFailures && t !in topics ==>
              a == Returns(Text(AvroSearchErrorPrefix + AccessErrorPrefix + t))
  {
    if t !in config.avroTopics then Returns(Nothing)
    else if t in s.registry.schemaFailures then
      Returns(Text(AvroSearchErrorPrefix + DeserializerError(t, s.registry.schemaFailures[t])))
    else match SearchForMsgs(QueryFor(p, t, "avro"), s.codec, topics)
      case Returns(items) => Returns(Listing(items))
      case Raises(e) =>
        assert AvroSearchErrorPrefix + AccessErrorPrefix + t == AvroSearchErrorPrefix + (AccessErrorPrefix + t);
        Returns(Text(AvroSearchErrorPrefix + Describe(e)))
      case Hangs => Hangs
  }

  /**
   * A JSON topic the broker lists, whose every partition reaches its end,
   * gets every match of the scan in its slot, newest first.
   */
  lemma JsonSlotListsMatches(p: Params, codec: Codec, topics: map<string, seq<Partition>>, t: string)
    requires p.search.Some? && t in topics
    requires DiscoverAll(QueryFor(p, t, "json"), codec, topics[t]).Finished?
    ensures JsonAnswer(p, codec, topics, t)
            == Returns(Listing(Layout(p.delimiter, DiscoverAll(QueryFor(p, t, "json"), codec, topics[t]).found)))
  {
    var found := DiscoverAll(QueryFor(p, t, "json"), codec, topics[t]).found;
    assert Layout(p.delimiter, found) + [] == Layout(p.delimiter, found);
  }

  /**
   * An Avro topic with a configured schema that loads, listed by the
   * broker and fully scanned, gets every match of the scan in its slot,
   * newest first.
   */
  lemma AvroSlotListsMatches(p: Params, config: Config, s: Services, topics: map<string, seq<Partition>>, t: string)
    requires p.search.Some? && t in topics
    requires t in config.avroTopics && t !in s.registry.schemaFailures
    requires DiscoverAll(QueryFor(p, t, "avro"), s.codec, topics[t]).Finished?
    ensures AvroAnswer(p, config, s, topics, t)
            == Returns(Listing(Layout(p.delimiter, DiscoverAll(QueryFor(p, t, "avro"), s.codec, topics[t]).found)))
  {
    var found := DiscoverAll(QueryFor(p, t, "avro"), s.codec, topics[t]).found;
    assert Layout(p.delimiter, found) + [] == Layout(p.delimiter, found);
  }

  /** Some JSON topic's scan polls forever. */
  predicate JsonHangs(p: Params, codec: Codec, topics: map<string, seq<Partition>>)
    requires p.search.Some?
  {
    exists t :: t in p.jsonTopics && JsonAnswer(p, codec, topics, t).Hangs?
  }

  /** Some Avro topic's scan polls forever. */
  predicate AvroHangs(p: Params, config: Config, s: Services, topics: map<string, seq<Partition>>)
    requires p.search.Some?
  {
    exists t :: t in p.avroTopics && AvroAnswer(p, config, s, topics, t).Hangs?
  }

  /** resp holds the slots of exactly the JSON topics in done. */
  predicate JsonSlots(resp: Response, done: set<string>, p: Params, codec: Codec, topics: map<string, seq<Partition>>)
    requires p.search.Some?
  {
    && (forall t :: t in done ==> JsonPrefix + t in resp && Returns(resp[JsonPrefix + t]) == JsonAnswer(p, codec, topics, t))
    && (forall k :: k in resp ==> StartsWith(k, JsonPrefix) && k[|JsonPrefix|..] in done)
  }

  /** resp holds the slots of exactly the Avro topics in done. */
  predicate AvroSlots(resp: Response, done: set<string>, p: Params, config: Config, s: Services,
                      topics: map<string, seq<Partition>>)
    requires p.search.Some?
  {
    && (forall t :: t in done ==> AvroPrefix + t in resp && Returns(resp[AvroPrefix + t]) == AvroAnswer(p, config, s, topics, t))
    && (forall k :: k in resp ==> StartsWith(k, AvroPrefix) && k[|AvroPrefix|..] in done)
  }

  /** Writing one more topic's slot under its prefixed key keeps every earlier slot. */
  lemma SlotAdded<A>(resp: map<string, A>, prefix: string, done: set<string>, t: string, a: A)
    requires forall k :: k in resp ==> StartsWith(k, prefix) && k[|prefix|..] in done
    ensures forall u :: u in done && u != t && prefix + u in resp ==>
              resp[prefix + t := a][prefix + u] == resp[prefix + u]
    ensures forall k :: k in resp[prefix + t := a] ==> StartsWith(k, prefix) && k[|prefix|..] in done + {t}
  {
    assert (prefix + t)[..|prefix|] == prefix;
    assert (prefix + t)[|prefix|..] == t;
    forall u | u in done && u != t
      ensures prefix + u != prefix + t
    {
      if prefix + u == prefix + t {
        KeysInjective(prefix, u, t);
      }
    }
  }

  /** One more JSON topic scanned: its slot joins the others. */
  lemma JsonSlotAdded(resp: Response, done: set<string>, p: Params, codec: Codec,
                      topics: map<string, seq<Partition>>, t: string)
    requires p.search.Some? && JsonSlots(resp, done, p, codec, topics)
    requires JsonAnswer(p, codec, topics, t).Returns?
    ensures JsonSlots(resp[JsonPrefix + t := JsonAnswer(p, codec, topics, t).value], done + {t}, p, codec, topics)
  {
    SlotAdded(resp, JsonPrefix, done, t, JsonAnswer(p, codec, topics, t).value);
  }

  /** One more Avro topic handled: its slot joins the others. */
  lemma AvroSlotAdded(resp: Response, done: set<string>, p: Params, config: Config, s: Services,
                      topics: map<string, seq<Partition>>, t: string)
    requires p.search.Some? && AvroSlots(resp, done, p, config, s, topics)
    requires AvroAnswer(p, config, s, topics, t).Returns?
    ensures AvroSlots(resp[AvroPrefix + t := AvroAnswer(p, config, s, topics, t).value], done + {t}, p, config, s, topics)
  {
    SlotAdded(resp, AvroPrefix, done, t, AvroAnswer(p, config, s, topics, t).value);
  }

  /**
   * The complete response: one slot per JSON topic and per Avro topic,
   * and the 'ERROR' entry exactly when closing the reader failed.
   */
  predicate Answers(resp: Response, p: Params, config: Config, s: Services, topics: map<string, seq<Partition>>)
    requires p.search.Some?
  {
    && (forall t :: t in p.jsonTopics ==> JsonPrefix + t in resp && Returns(resp[JsonPrefix + t]) == JsonAnswer(p, s.codec, topics, t))
    && (forall t :: t in p.avroTopics ==> AvroPrefix + t in resp && Returns(resp[AvroPrefix + t]) == AvroAnswer(p, config, s, topics, t))
    && (ErrorKey in resp <==> s.broker.closeFailure.Some?)
    && (ErrorKey in resp ==> resp[ErrorKey] == Text(CloseErrorPrefix + s.broker.closeFailure.value))
    && (forall k :: k in resp ==>
          || k == ErrorKey
          || (StartsWith(k, JsonPrefix) && k[|JsonPrefix|..] in p.jsonTopics)
          || (StartsWith(k, AvroPrefix) && k[|AvroPrefix|..] in p.avroTopics))
  }

  /**
   * The response keys cannot collide: each prefix is followed by the
   * topic name it was built from, the two prefixes differ in their first
   * letter, and 'ERROR' starts with neither.
   */
  lemma PrefixedKeys(t: string)
    ensures StartsWith(JsonPrefix + t, JsonPrefix) && (JsonPrefix + t)[|JsonPrefix|..] == t
    ensures StartsWith(AvroPrefix + t, AvroPrefix) && (AvroPrefix + t)[|AvroPrefix|..] == t
    ensures !StartsWith(JsonPrefix + t, AvroPrefix) && !StartsWith(AvroPrefix + t, JsonPrefix)
    ensures !StartsWith(ErrorKey, JsonPrefix) && !StartsWith(ErrorKey, AvroPrefix)
  {
    assert (JsonPrefix + t)[..|JsonPrefix|] == JsonPrefix;
    assert (AvroPrefix + t)[..|AvroPrefix|] == AvroPrefix;
    assert (JsonPrefix + t)[0] == 'J' && (AvroPrefix + t)[0] == 'A';
  }

  /** Distinct topics get distinct keys, under either prefix. */
  lemma KeysInjective(prefix: string, t: string, u: string)
    requires prefix + t == prefix + u
    ensures t == u
  {
    assert t == (prefix + t)[|prefix|..];
    assert u == (prefix + u)[|prefix|..];
  }

  /**
   * The response once both loops are done: the JSON slots, the Avro
   * slots, and the 'ERROR' entry when closing the reader failed.
   */
  function Assembled(jsonSlots: Response, avroSlots: Response, closeFailure: Option<string>): Response {
    if closeFailure.Some? then (jsonSlots + avroSlots)[ErrorKey := Text(CloseErrorPrefix + closeFailure.value)]
    else jsonSlots + avroSlots
  }

  /** A JSON slot key and an Avro slot key differ in their first letter, and neither is 'ERROR'. */
  lemma SlotKeysDisjoint(k: string)
    ensures StartsWith(k, JsonPrefix) ==> !StartsWith(k, AvroPrefix) && k != ErrorKey
    ensures StartsWith(k, AvroPrefix) ==> k != ErrorKey
  {
    if StartsWith(k, JsonPrefix) {
      assert k[0] == JsonPrefix[0];
    }
    if StartsWith(k, AvroPrefix) {
      assert k[0] == AvroPrefix[0];
    }
  }

  /** The two halves and the close outcome make up the complete response. */
  lemma AssembledAnswers(jr: Response, ar: Response, p: Params, config: Config, s: Services,
                         topics: map<string, seq<Partition>>)
    requires p.search.Some?
    requires JsonSlots(jr, p.jsonTopics, p, s.codec, topics) && AvroSlots(ar, p.avroTopics, p, config, s, topics)
    ensures Answers(Assembled(jr, ar, s.broker.closeFailure), p, config, s, topics)
  {
    forall k | k in jr
      ensures k !in ar && k != ErrorKey
    {
      SlotKeysDisjoint(k);
    }
    forall k | k in ar
      ensures k != ErrorKey
    {
      SlotKeysDisjoint(k);
    }
  }

  /**
   * A close failure only adds the 'ERROR' entry: every topic slot is the
   * same as after a clean close.
   */
  lemma CloseFailureKeepsSlots(jr: Response, ar: Response, p: Params, config: Config, s: Services,
                               topics: map<string, seq<Partition>>, failure: string)
    requires p.search.Some?
    requires JsonSlots(jr, p.jsonTopics, p, s.codec, topics) && AvroSlots(ar, p.avroTopics, p, config, s, topics)
    ensures ErrorKey !in Assembled(jr, ar, None)
    ensures Assembled(jr, ar, Some(failure)) == Assembled(jr, ar, None)[ErrorKey := Text(CloseErrorPrefix + failure)]
  {
    PrefixedKeys("");
  }

  /** The loop over the JSON topics, in the set's iteration order. */
  method SearchJsonTopics(p: Params, codec: Codec, topics: map<string, seq<Partition>>)
    returns (out: Outcome<Response>, calls: seq<Call>)
    requires p.search.Some?
    ensures !out.Raises?
    ensures out.Hangs? <==> JsonHangs(p, codec, topics)
    ensures out.Returns? ==> JsonSlots(out.value, p.jsonTopics, p, codec, topics)
    ensures forall c :: c in calls ==> c.Scan? && c.kind == "json" && c.topic in p.jsonTopics
    ensures out.Returns? ==> forall t :: t in p.jsonTopics ==> Scan(t, "json") in calls
  {
    var resp: Response := map[];
    var pending := p.jsonTopics;
    calls := [];
    while pending != {}
      invariant pending <= p.jsonTopics
      invariant JsonSlots(resp, p.jsonTopics - pending, p, codec, topics)
      invariant forall c :: c in calls ==> c.Scan? && c.kind == "json" && c.topic in p.jsonTopics
      invariant forall t :: t in p.jsonTopics - pending ==> Scan(t, "json") in calls
      decreases pending
    {
      var t :| t in pending;
      calls := calls + [Scan(t, "json")];
      var a := JsonAnswer(p, codec, topics, t);
      if a.Hangs? {
        return Hangs, calls;
      }
      JsonSlotAdded(resp, p.jsonTopics - pending, p, codec, topics, t);
      resp := resp[JsonPrefix + t := a.value];
      assert (p.jsonTopics - pending) + {t} == p.jsonTopics - (pending - {t});
      pending := pending - {t};
    }
    out := Returns(resp);
  }

  /** A call the Avro half may make: what it opens, loads and scans. */
  predicate AvroCall(c: Call, p: Params, config: Config, s: Services) {
    match c
    case OpenAvroClient(_) => p.avroTopics != {}
    case LoadDeserializer(t) => t in p.avroTopics && t in config.avroTopics
    case Scan(t, kind) =>
      kind == "avro" && t in p.avroTopics && t in config.avroTopics && t !in s.registry.schemaFailures
    case _ => false
  }

  /** Every call of the trace is one the Avro half may make. */
  predicate AvroTrace(calls: seq<Call>, p: Params, config: Config, s: Services) {
    forall c :: c in calls ==> AvroCall(c, p, config, s)
  }

  /**
   * One Avro topic inside the loop: a topic without a configured schema
   * is skipped; otherwise its deserializer is loaded and, if that works,
   * the topic is scanned.
   */
  method AvroTopicStep(p: Params, config: Config, s: Services, topics: map<string, seq<Partition>>, t: string)
    returns (a: Outcome<Answer>, steps: seq<Call>)
    requires p.search.Some? && t in p.avroTopics
    ensures a == AvroAnswer(p, config, s, topics, t)
    ensures AvroTrace(steps, p, config, s)
    ensures LoadDeserializer(t) in steps <==> t in config.avroTopics
    ensures Scan(t, "avro") in steps <==> t in config.avroTopics && t !in s.registry.schemaFailures
    ensures ScansLoaded(steps) && OpenAvroClient(p.environment) !in steps
  {
    steps := [];
    if t in config.avroTopics {
      steps := [LoadDeserializer(t)];
      if t !in s.registry.schemaFailures {
        steps := steps + [Scan(t, "avro")];
      }
    }
    a := AvroAnswer(p, config, s, topics, t);
  }

  /** A trace extended by calls the Avro half may make is still one. */
  lemma AvroTraceAppend(a: seq<Call>, b: seq<Call>, p: Params, config: Config, s: Services)
    requires AvroTrace(a, p, config, s) && AvroTrace(b, p, config, s)
    ensures AvroTrace(a + b, p, config, s)
  {
    forall c | c in a + b
      ensures AvroCall(c, p, config, s)
    {
      if c !in a {
        assert c in b;
      }
    }
  }

  /**
   * The loop over the Avro topics once the AvroClient exists: every topic
   * gets its slot, and only configured topics are loaded and scanned.
   */
  method AvroTopicsLoop(p: Params, config: Config, s: Services, topics: map<string, seq<Partition>>)
    returns (out: Outcome<Response>, calls: seq<Call>)
    requires p.search.Some?
    ensures !out.Raises?
    ensures out.Hangs? <==> AvroHangs(p, config, s, topics)
    ensures out.Returns? ==> AvroSlots(out.value, p.avroTopics, p, config, s, topics)
    ensures AvroTrace(calls, p, config, s)
    ensures out.Returns? ==>
      forall t :: t in p.avroTopics && t in config.avroTopics && t !in s.registry.schemaFailures ==>
        Scan(t, "avro") in calls
    ensures ScansLoaded(calls) && OpenAvroClient(p.environment) !in calls
  {
    var resp: Response := map[];
    calls := [];
    var pending := p.avroTopics;
    while pending != {}
      invariant pending <= p.avroTopics
      invariant AvroSlots(resp, p.avroTopics - pending, p, config, s, topics)
      invariant AvroTrace(calls, p, config, s)
      invariant forall t :: t in p.avroTopics - pending && t in config.avroTopics && t !in s.registry.schemaFailures ==>
        Scan(t, "avro") in calls
      invariant ScansLoaded(calls) && OpenAvroClient(p.environment) !in calls
      decreases pending
    {
      var t :| t in pending;
      var a, steps := AvroTopicStep(p, config, s, topics, t);
      AvroTraceAppend(calls, steps, p, config, s);
      ScansLoadedJoin(calls, steps);
      calls := calls + steps;
      if a.Hangs? {
        return Hangs, calls;
      }
      AvroSlotAdded(resp, p.avroTopics - pending, p, config, s, topics, t);
      resp := resp[AvroPrefix + t := a.value];
      assert (p.avroTopics - pending) + {t} == p.avroTopics - (pending - {t});
      pending := pending - {t};
    }
    out := Returns(resp);
  }

  /**
   * The Avro half: the AvroClient, built for a non-empty Avro set only,
   * then the loop over the Avro topics. An AvroClient failure raises.
   */
  method SearchAvroTopics(p: Params, config: Config, s: Services, topics: map<string, seq<Partition>>)
    returns (out: Outcome<Response>, calls: seq<Call>)
    requires p.search.Some?
    ensures p.avroTopics == {} ==> out == Returns(map[]) && calls == []
    ensures p.avroTopics != {} && s.registry.clientFailure.Some? ==>
              out == Raises(ErrorHandler(AvroClientErrorPrefix + s.registry.clientFailure.value))
              && calls == [OpenAvroClient(p.environment)]
    ensures p.avroTopics != {} && s.registry.clientFailure.None? ==> (out.Hangs? <==> AvroHangs(p, config, s, topics))
    ensures out.Raises? ==> p.avroTopics != {} && s.registry.clientFailure.Some?
    ensures out.Returns? ==> AvroSlots(out.value, p.avroTopics, p, config, s, topics)
    ensures AvroTrace(calls, p, config, s)
    ensures out.Returns? ==>
      forall t :: t in p.avroTopics && t in config.avroTopics && t !in s.registry.schemaFailures ==>
        Scan(t, "avro") in calls
    ensures InOrder(calls, p.environment)
  {
    if p.avroTopics == {} {
      return Returns(map[]), [];
    }
    var opening := [OpenAvroClient(p.environment)];
    if s.registry.clientFailure.Some? {
      return Raises(ErrorHandler(AvroClientErrorPrefix + s.registry.clientFailure.value)), opening;
    }
    var looped;
    out, looped := AvroTopicsLoop(p, config, s, topics);
    AvroTraceAppend(opening, looped, p, config, s);
    calls := opening + looped;
    OpenedInOrder(looped, p, config, s);
  }

  /** A JSON scan. */
  predicate JsonScan(c: Call) {
    c.Scan? && c.kind == "json"
  }

  /** Every Avro scan comes right after the deserializer of its topic is loaded. */
  predicate ScansLoaded(calls: seq<Call>) {
    forall j :: 0 <= j < |calls| && calls[j].Scan? && calls[j].kind == "avro" ==>
      0 < j && calls[j - 1] == LoadDeserializer(calls[j].topic)
  }

  /**
   * The order of the search's calls: the JSON scans come first, the
   * AvroClient is opened before any deserializer is loaded, and each Avro
   * scan follows the load of its topic's deserializer.
   */
  predicate InOrder(calls: seq<Call>, environment: string) {
    && (forall i, j :: 0 <= i < j < |calls| && JsonScan(calls[j]) ==> JsonScan(calls[i]))
    && (forall j :: 0 <= j < |calls| && calls[j].LoadDeserializer? ==> OpenAvroClient(environment) in calls[..j])
    && ScansLoaded(calls)
  }

  /** Two traces each loading before scanning still do so joined. */
  lemma ScansLoadedJoin(a: seq<Call>, b: seq<Call>)
    requires ScansLoaded(a) && ScansLoaded(b)
    ensures ScansLoaded(a + b)
  {
    forall j | 0 <= j < |a + b| && (a + b)[j].Scan? && (a + b)[j].kind == "avro"
      ensures 0 < j && (a + b)[j - 1] == LoadDeserializer((a + b)[j].topic)
    {
      if j >= |a| {
        assert (a + b)[j] == b[j - |a|];
        assert (a + b)[j - 1] == b[j - |a| - 1];
      }
    }
  }

  /** The AvroClient followed by the loop's calls is in order. */
  lemma OpenedInOrder(looped: seq<Call>, p: Params, config: Config, s: Services)
    requires ScansLoaded(looped) && AvroTrace(looped, p, config, s)
    ensures InOrder([OpenAvroClient(p.environment)] + looped, p.environment)
  {
    var calls := [OpenAvroClient(p.environment)] + looped;
    ScansLoadedJoin([OpenAvroClient(p.environment)], looped);
    forall j | 0 <= j < |calls| && calls[j].LoadDeserializer?
      ensures OpenAvroClient(p.environment) in calls[..j]
    {
      assert calls[..j][0] == calls[0];
    }
    forall j | 0 < j < |calls|
      ensures !JsonScan(calls[j])
    {
      assert calls[j] == looped[j - 1] && calls[j] in looped;
    }
  }

  /** The JSON scans, then the Avro half's calls in order, then possibly the close: in order. */
  lemma SearchInOrder(jc: seq<Call>, ac: seq<Call>, tail: seq<Call>, p: Params, config: Config, s: Services)
    requires forall c :: c in jc ==> c.Scan? && c.kind == "json"
    requires InOrder(ac, p.environment) && AvroTrace(ac, p, config, s)
    requires tail == [] || tail == [CloseReader]
    ensures InOrder(jc + ac + tail, p.environment)
  {
    var calls := jc + ac + tail;
    assert ScansLoaded(jc) by {
      forall j | 0 <= j < |jc| ensures JsonScan(jc[j]) { assert jc[j] in jc; }
    }
    ScansLoadedJoin(jc, ac);
    ScansLoadedJoin(jc + ac, tail);
    forall j | 0 <= j < |jc|
      ensures JsonScan(calls[j])
    {
      assert calls[j] == jc[j] && calls[j] in jc;
    }
    forall j | |jc| <= j < |jc| + |ac|
      ensures calls[j] == ac[j - |jc|] && !JsonScan(calls[j])
      ensures calls[..j] == jc + ac[..j - |jc|]
    {
      assert calls[j] in ac;
    }
    assert forall j :: |jc| + |ac| <= j < |calls| ==> calls[j] == CloseReader;
  }

  /**
   * A call the search may make once the reader is open: a scan of a
   * requested JSON topic, or a call the Avro half may make. The reader is
   * never opened again, and its close is accounted for separately.
   */
  predicate SearchCall(c: Call, p: Params, config: Config, s: Services) {
    match c
    case OpenReader(_) => false
    case CloseReader => false
    case Scan(t, kind) => if kind == "json" then t in p.jsonTopics else AvroCall(c, p, config, s)
    case _ => AvroCall(c, p, config, s)
  }

  /** The JSON loop's scans followed by the Avro half's calls are all search calls. */
  lemma SearchTraceJoin(jc: seq<Call>, ac: seq<Call>, p: Params, config: Config, s: Services)
    requires forall c :: c in jc ==> c.Scan? && c.kind == "json" && c.topic in p.jsonTopics
    requires AvroTrace(ac, p, config, s)
    ensures forall c :: c in jc + ac ==> SearchCall(c, p, config, s)
  {
    forall c | c in jc + ac
      ensures SearchCall(c, p, config, s)
    {
      if c !in jc {
        assert c in ac && AvroCall(c, p, config, s);
      }
    }
  }

  /**
   * What the search over an open reader does: a hanging JSON scan hangs
   * it; otherwise an AvroClient failure raises and a hanging Avro scan
   * hangs it. A returned response holds every topic's slot, and closing
   * the reader is the last call, made only then; every other call is one
   * the search may make.
   */
  predicate Searched(out: Outcome<Response>, calls: seq<Call>, p: Params, config: Config, s: Services,
                     topics: map<string, seq<Partition>>)
    requires p.search.Some?
  {
    && (JsonHangs(p, s.codec, topics) ==> out == Hangs)
    && (!JsonHangs(p, s.codec, topics) && p.avroTopics != {} && s.registry.clientFailure.Some? ==>
          out == Raises(ErrorHandler(AvroClientErrorPrefix + s.registry.clientFailure.value)))
    && (!JsonHangs(p, s.codec, topics) && (p.avroTopics == {} || s.registry.clientFailure.None?) ==>
          (out.Hangs? <==> AvroHangs(p, config, s, topics)))
    && (out.Returns? ==> Answers(out.value, p, config, s, topics))
    && (out.Returns? <==> calls != [] && calls[|calls| - 1] == CloseReader)
    && (out.Returns? ==> forall c :: c in calls[..|calls| - 1] ==> SearchCall(c, p, config, s))
    && (!out.Returns? ==> forall c :: c in calls ==> SearchCall(c, p, config, s))
  }

  /**
   * The searching part of __begin_search, once the reader holds the
   * broker's topic listing: the JSON topics, then the Avro topics, then
   * the close. A close failure adds the 'ERROR' entry and keeps every
   * topic's slot.
   */
  method SearchTopics(p: Params, config: Config, s: Services, topics: map<string, seq<Partition>>)
    returns (out: Outcome<Response>, calls: seq<Call>)
    requires p.search.Some?
    ensures Searched(out, calls, p, config, s, topics)
    ensures InOrder(calls, p.environment)
  {
    var jsonOut, jsonCalls := SearchJsonTopics(p, s.codec, topics);
    if jsonOut.Hangs? {
      SearchTraceJoin(jsonCalls, [], p, config, s);
      assert jsonCalls + [] == jsonCalls;
      calls := jsonCalls;
      SearchInOrder(jsonCalls, [], [], p, config, s);
      assert jsonCalls + [] + [] == jsonCalls;
      out := Hangs;
      StoppedSearched(out, calls, p, config, s, topics);
      return;
    }
    var avroOut, avroCalls := SearchAvroTopics(p, config, s, topics);
    SearchTraceJoin(jsonCalls, avroCalls, p, config, s);
    var before := jsonCalls + avroCalls;
    if !avroOut.Returns? {
      calls := before;
      SearchInOrder(jsonCalls, avroCalls, [], p, config, s);
      assert before + [] == before;
      out := if avroOut.Hangs? then Hangs else Raises(avroOut.exc);
      StoppedSearched(out, calls, p, config, s, topics);
      return;
    }
    out := Returns(Assembled(jsonOut.value, avroOut.value, s.broker.closeFailure));
    calls := before + [CloseReader];
    SearchInOrder(jsonCalls, avroCalls, [CloseReader], p, config, s);
    ReturnedSearched(jsonOut.value, avroOut.value, before, p, config, s, topics);
  }

  /** A search that stops before the close: its trace holds search calls only. */
  lemma StoppedSearched(out: Outcome<Response>, calls: seq<Call>, p: Params, config: Config, s: Services,
                        topics: map<string, seq<Partition>>)
    requires p.search.Some? && !out.Returns?
    requires JsonHangs(p, s.codec, topics) ==> out == Hangs
    requires !JsonHangs(p, s.codec, topics) && p.avroTopics != {} && s.registry.clientFailure.Some? ==>
               out == Raises(ErrorHandler(AvroClientErrorPrefix + s.registry.clientFailure.value))
    requires !JsonHangs(p, s.codec, topics) && (p.avroTopics == {} || s.registry.clientFailure.None?) ==>
               (out.Hangs? <==> AvroHangs(p, config, s, topics))
    requires forall c :: c in calls ==> SearchCall(c, p, config, s)
    ensures Searched(out, calls, p, config, s, topics)
  {
    assert calls != [] ==> calls[|calls| - 1] in calls;
  }

  /** A search that reaches the close: the assembled response answers every topic. */
  lemma ReturnedSearched(jr: Response, ar: Response, before: seq<Call>, p: Params, config: Config, s: Services,
                         topics: map<string, seq<Partition>>)
    requires p.search.Some?
    requires !JsonHangs(p, s.codec, topics)
    requires p.avroTopics == {} || s.registry.clientFailure.None?
    requires !AvroHangs(p, config, s, topics)
    requires JsonSlots(jr, p.jsonTopics, p, s.codec, topics) && AvroSlots(ar, p.avroTopics, p, config, s, topics)
    requires forall c :: c in before ==> SearchCall(c, p, config, s)
    ensures Searched(Returns(Assembled(jr, ar, s.broker.closeFailure)), before + [CloseReader], p, config, s, topics)
  {
    AssembledAnswers(jr, ar, p, config, s, topics);
    assert (before + [CloseReader])[..|before|] == before;
  }

  /**
   * What __begin_search does: it opens the reader first; a reader that
   * cannot be opened raises before anything else is called; otherwise
   * the search runs over the broker's topic listing.
   */
  predicate Began(out: Outcome<Response>, calls: seq<Call>, p: Params, config: Config, s: Services)
    requires p.search.Some?
  {
    && |calls| > 0 && calls[0] == OpenReader(p.environment)
    && (OpenTopics(s.broker, p.environment).Fail? ==>
          out == Raises(OpenTopics(s.broker, p.environment).exc) && calls == [OpenReader(p.environment)])
    && (OpenTopics(s.broker, p.environment).Ok? ==>
          Searched(out, calls[1..], p, config, s, OpenTopics(s.broker, p.environment).value)
          && InOrder(calls[1..], p.environment))
  }

  /** __begin_search over validated params. */
  method BeginSearch(p: Params, config: Config, s: Services)
    returns (out: Outcome<Response>, calls: seq<Call>)
    requires Validate(p).Ok?
    ensures Began(out, calls, p, config, s)
  {
    calls := [OpenReader(p.environment)];
    var reader := OpenTopics(s.broker, p.environment);
    if reader.Fail? {
      return Raises(reader.exc), calls;
    }
    var searched;
    out, searched := SearchTopics(p, config, s, reader.value);
    calls := calls + searched;
    assert calls[1..] == searched;
  }

  /**
   * process_request: resolve the params (parse, build, log, validate),
   * then search. A request that fails to resolve makes no call at all:
   * no reader exists before validation.
   */
  method ProcessRequest(req: Incoming, config: Config, isoParse: string -> Attempt<int>, s: Services)
    returns (out: Outcome<Response>, calls: seq<Call>)
    ensures Resolve(req, config, isoParse).Fail? ==> out == Raises(Resolve(req, config, isoParse).exc) && calls == []
    ensures Resolve(req, config, isoParse).Ok? ==> Began(out, calls, Resolve(req, config, isoParse).value, config, s)
  {
    var resolved := Resolve(req, config, isoParse);
    if resolved.Fail? {
      return Raises(resolved.exc), [];
    }
    out, calls := BeginSearch(resolved.value, config, s);
  }

  // ---- properties of the response ----

  /**
   * An Avro topic without a configured schema is never scanned and its
   * slot holds None.
   */
  lemma UnconfiguredAvroTopicIsNone(resp: Response, p: Params, config: Config, s: Services,
                                    topics: map<string, seq<Partition>>, t: string)
    requires p.search.Some? && Answers(resp, p, config, s, topics)
    requires t in p.avroTopics && t !in config.avroTopics
    ensures AvroPrefix + t in resp && resp[AvroPrefix + t] == Nothing
  {
  }

  /**
   * A JSON topic the broker does not list gets its access error in its
   * own slot; every other topic's slot is still filled.
   */
  lemma MissingJsonTopicIsolated(resp: Response, p: Params, config: Config, s: Services,
                                 topics: map<string, seq<Partition>>, t: string)
    requires p.search.Some? && Answers(resp, p, config, s, topics)
    requires t in p.jsonTopics && t !in topics
    ensures resp[JsonPrefix + t] == Text(JsonSearchErrorPrefix + AccessErrorPrefix + t)
    ensures forall u :: u in p.jsonTopics ==> JsonPrefix + u in resp
    ensures forall u :: u in p.avroTopics ==> AvroPrefix + u in resp
  {
  }

  /**
   * An Avro topic whose deserializer cannot be created gets the load
   * error in its own slot, prefixed as a search error.
   */
  lemma DeserializerFailureIsolated(resp: Response, p: Params, config: Config, s: Services,
                                    topics: map<string, seq<Partition>>, t: string)
    requires p.search.Some? && Answers(resp, p, config, s, topics)
    requires t in p.avroTopics && t in config.avroTopics && t in s.registry.schemaFailures
    ensures resp[AvroPrefix + t] ==
              Text(AvroSearchErrorPrefix + DeserializerErrorPrefix + t + DeserializerErrorMiddle + s.registry.schemaFailures[t])
  {
    assert Returns(resp[AvroPrefix + t]) == AvroAnswer(p, config, s, topics, t);
    DeserializerText(t, s.registry.schemaFailures[t]);
  }

  /** Proof helper: the loading error's message regrouped, kept apart so the solver meets it once. */
  lemma DeserializerText(t: string, f: string)
    ensures AvroSearchErrorPrefix + DeserializerError(t, f)
         == AvroSearchErrorPrefix + DeserializerErrorPrefix + t + DeserializerErrorMiddle + f
  {
  }

  /**
   * An Avro message that fails to deserialize turns the whole topic's slot
   * into one error text: none of that topic's other matches survive.
   */
  lemma AvroDecodeFailureFillsSlot(resp: Response, p: Params, config: Config, s: Services,
                                   topics: map<string, seq<Partition>>, t: string)
    requires p.search.Some? && Answers(resp, p, config, s, topics)
    requires t in p.avroTopics && t in config.avroTopics && t !in s.registry.schemaFailures
    requires t in topics && DiscoverAll(QueryFor(p, t, "avro"), s.codec, topics[t]).Aborted?
    ensures resp[AvroPrefix + t] ==
              Text(AvroSearchErrorPrefix + Describe(DiscoverAll(QueryFor(p, t, "avro"), s.codec, topics[t]).exc))
  {
  }
}

=== FILE: request_params.dfy ===
/**
 * How RequestHandler turns an incoming HTTP request into the parameters
 * of one search: merging the request's key/value sources, normalising
 * each parameter with its default, building the JSON and Avro topic sets,
 * and the checks a request must pass before any broker object exists.
 */
module RequestParams {
  import opened PyText
  import opened PyValues

  // Keys of the incoming request.
  const SearchKey := "searchParam"
  const EnvironmentKey := "environment"
  const IncludeMetadataKey := "includeKafkaMetadata"
  const DelimiterKey := "includeDelimiter"
  const OtherTopicKey := "otherTopic"
  const JsonTopicsKey := "json_topics"
  const AvroTopicsKey := "avro_topics"
  const NotBeforeKey := "notBefore"
  const SearchCountKey := "search_count"

  const ParseParamsMessage := "Error parsing params"
  const NotBeforePrefix := "Error parsing DateTime 'notBefore' -> "
  const NotBeforeMiddle := " .  Value must be of format DateTimeFormatter.ofPattern('yyyy-MM-dd HH:mm:ss') "
  const MissingSearchMessage :=
    "Invalid request. Required param: searchParam not found .... If you are receiving this error in postman "
    + "and have included the required key, please uncheck option in Headers Content-type - "
    + "application/x-www-form-urlencoded and try again"
  const NoTopicsMessage := "Invalid request. No valid topics selected for search"
  /** What json.dumps raises for the datetime a parsed notBefore becomes. */
  const DatetimeNotSerializable := Builtin("Object of type datetime is not JSON serializable")

  /**
   * An incoming request: its form fields, its query arguments, request.json
   * (JNull when the request carries none), and what json.loads makes of the
   * decoded raw body.
   */
  datatype Incoming = Incoming(
    form: map<string, string>, args: map<string, string>, json: Json, body: Attempt<Json>)

  /**
   * The configuration the handler consults: the configured JSON topic
   * names, the names of the configured Avro topics (those with a schema),
   * and the default values of three parameters.
   */
  datatype Config = Config(
    jsonTopics: set<string>, avroTopics: set<string>,
    defaultEnvironment: string, defaultIncludeMetadata: string, defaultDelimiter: string)

  /** notBefore: kept as text when 'false' or blank, otherwise the instant it parses to. */
  datatype NotBefore = Unset(text: string) | At(instant: int)

  /** The params dict used for the rest of the request. */
  datatype Params = Params(
    search: Option<string>, environment: string, includeMetadata: string, delimiter: string,
    otherTopic: string, searchCount: Option<int>, notBefore: NotBefore,
    jsonTopics: set<string>, avroTopics: set<string>)

  // ---- __parse_incoming_request ----

  /** Where a merged key's value comes from: the JSON body over args over form. */
  function Source(req: Incoming, k: string): Option<Json> {
    if req.json.JDict? && Truthy(req.json) && k in req.json.entries then Some(req.json.entries[k])
    else if k in req.args then Some(JStr(req.args[k]))
    else if k in req.form then Some(JStr(req.form[k]))
    else None
  }

  /** {**form, **args}, then {**that, **request.json} when request.json is truthy. */
  function Merge(req: Incoming): (r: Try<map<string, Json>>)
    ensures r.Ok? <==> !Truthy(req.json) || req.json.JDict?
    ensures r.Ok? ==> forall k :: k in r.value <==> Source(req, k).Some?
    ensures r.Ok? ==> forall k :: k in r.value ==> r.value[k] == Source(req, k).value
    ensures r.Fail? ==> r.exc.Builtin?
  {
    var fields := map k | k in req.form.Keys + req.args.Keys ::
      if k in req.args then JStr(req.args[k]) else JStr(req.form[k]);
    if !Truthy(req.json) then Ok(fields)
    else if req.json.JDict? then Ok(fields + req.json.entries)
    else Fail(Builtin("'" + TypeName(req.json) + "' object is not a mapping"))
  }

  /**
   * The raw JSON body, used when the merge is empty. An empty result is
   * refused; a non-empty non-dict one fails at the first .get() the
   * parameter builder makes, and a value without len() fails here.
   */
  function FromBody(body: Attempt<Json>): (r: Try<map<string, Json>>)
    ensures r.Ok? <==> body.Got? && body.value.JDict? && body.value.entries != map[]
    ensures r.Ok? ==> r.value == body.value.entries
    ensures r == Fail(ErrorHandler(ParseParamsMessage)) <==> body.Got? && IsEmptyContainer(body.value)
    ensures r.Fail? && r.exc.ErrorHandler? ==> r.exc.msg == ParseParamsMessage
  {
    var b :- Lift(body);
    match b
    case JDict(d) => if d == map[] then Fail(ErrorHandler(ParseParamsMessage)) else Ok(d)
    case JList(items) => if items == [] then Fail(ErrorHandler(ParseParamsMessage)) else Fail(NoAttribute(b, "get"))
    case JStr(s) => if s == "" then Fail(ErrorHandler(ParseParamsMessage)) else Fail(NoAttribute(b, "get"))
    case _ => Fail(Builtin("object of type '" + TypeName(b) + "' has no len()"))
  }

  /** A JSON value len() accepts and finds empty. */
  predicate IsEmptyContainer(v: Json) {
    v == JDict(map[]) || v == JList([]) || v == JStr("")
  }

  /** __parse_incoming_request: the merged request, falling back on the raw body. */
  function ParseIncoming(req: Incoming): (r: Try<map<string, Json>>)
    ensures r.Ok? ==> r.value != map[]
    ensures Merge(req).Ok? && Merge(req).value != map[] ==> r == Merge(req)
    ensures Merge(req).Ok? && Merge(req).value == map[] ==> r == FromBody(req.body)
    ensures Merge(req).Fail? ==> r == Merge(req)
  {
    var merged :- Merge(req);
    if merged != map[] then Ok(merged) else FromBody(req.body)
  }

  /**
   * The merge precedence: a key of the parsed request holds the JSON body's
   * value if the body has the key, else the argument's, else the form
   * field's; and the keys are exactly the keys of the three sources.
   */
  lemma MergePrecedence(req: Incoming, k: string)
    requires ParseIncoming(req).Ok? && Merge(req).Ok? && Merge(req).value != map[]
    ensures k in ParseIncoming(req).value <==>
              (req.json.JDict? && k in req.json.entries) || k in req.args || k in req.form
    ensures req.json.JDict? && k in req.json.entries ==> ParseIncoming(req).value[k] == req.json.entries[k]
    ensures !(req.json.JDict? && k in req.json.entries) && k in req.args ==>
              ParseIncoming(req).value[k] == JStr(req.args[k])
    ensures !(req.json.JDict? && k in req.json.entries) && k !in req.args && k in req.form ==>
              ParseIncoming(req).value[k] == JStr(req.form[k])
  {
    if req.json.JDict? && k in req.json.entries {
      assert Truthy(req.json);
    }
  }

  /**
   * "Error parsing params" is raised exactly when the merge is empty and
   * the raw body decodes to an empty dict, list or string.
   */
  lemma EmptyRequestRefused(req: Incoming)
    ensures ParseIncoming(req) == Fail(ErrorHandler(ParseParamsMessage)) <==>
              Merge(req) == Ok(map[]) && req.body.Got? && IsEmptyContainer(req.body.value)
  {
  }

  // ---- __build_params ----

  /** v.strip().lower() of a request value with a default; Normalise states the result. */
  function Setting(parsed: map<string, Json>, key: string, default: string): (r: Try<string>)
    ensures key !in parsed ==> r == Ok(Lower(Strip(default)))
    ensures key in parsed ==> r == Normalise(parsed[key])
  {
    Normalise(Get(parsed, key, JStr(default)))
  }

  /** The search string: trimmed and lower-cased when truthy, None otherwise. */
  function SearchOf(parsed: map<string, Json>): (r: Try<Option<string>>)
    ensures r == Ok(None) <==> !(SearchKey in parsed && Truthy(parsed[SearchKey]))
    ensures r.Ok? && r.value.Some? ==>
              parsed[SearchKey].JStr? && r.value.value == Lower(Strip(parsed[SearchKey].s))
    ensures r.Fail? <==> SearchKey in parsed && Truthy(parsed[SearchKey]) && !parsed[SearchKey].JStr?
    ensures r.Fail? ==> r.exc == NoAttribute(parsed[SearchKey], "strip")
  {
    var raw := Get(parsed, SearchKey, JNull);
    if !Truthy(raw) then Ok(None)
    else
      var s :- Normalise(raw);
      Ok(Some(s))
  }

  /** search_count: int() of a truthy value, None otherwise. */
  function SearchCountOf(parsed: map<string, Json>): (r: Try<Option<int>>)
    ensures r == Ok(None) <==> !(SearchCountKey in parsed && Truthy(parsed[SearchCountKey]))
    ensures r.Ok? && r.value.Some? ==> IntOf(parsed[SearchCountKey]) == Ok(r.value.value)
    ensures r.Fail? ==> r.exc.Builtin?
  {
    var raw := Get(parsed, SearchCountKey, JNull);
    if !Truthy(raw) then Ok(None)
    else
      var n :- IntOf(raw);
      Ok(Some(n))
  }

  /**
   * __convert_not_before over an abstract parse (datetime.fromisoformat
   * followed by localising to UTC): its failure text is wrapped.
   */
  function ConvertNotBefore(text: string, isoParse: string -> Attempt<int>): (r: Try<NotBefore>)
    ensures r.Ok? <==> isoParse(text).Got?
    ensures r.Ok? ==> r.value == At(isoParse(text).value)
    ensures r.Fail? ==>
      r.exc == ErrorHandler(NotBeforePrefix + text + NotBeforeMiddle + isoParse(text).text)
  {
    match isoParse(text)
    case Got(t) => Ok(At(t))
    case Threw(e) => Fail(ErrorHandler(NotBeforePrefix + text + NotBeforeMiddle + e))
  }

  /** notBefore, default 'false': 'false' and blank stay text, anything else is parsed. */
  function NotBeforeOf(parsed: map<string, Json>, isoParse: string -> Attempt<int>): (r: Try<NotBefore>)
    ensures r.Ok? && r.value.Unset? ==> r.value.text == "false" || r.value.text == ""
    ensures NotBeforeKey !in parsed ==> r == Ok(Unset("false"))
    ensures r.Ok? && r.value.At? ==> NotBeforeKey in parsed
    ensures Setting(parsed, NotBeforeKey, "false").Fail? ==> r == Fail(Setting(parsed, NotBeforeKey, "false").exc)
    ensures (r.Ok? && r.value.Unset?) <==>
              Setting(parsed, NotBeforeKey, "false").Ok? && Setting(parsed, NotBeforeKey, "false").value in {"false", ""}
    ensures r.Ok? && r.value.Unset? ==> r.value.text == Setting(parsed, NotBeforeKey, "false").value
    ensures Setting(parsed, NotBeforeKey, "false").Ok? && Setting(parsed, NotBeforeKey, "false").value !in {"false", ""} ==>
              r == ConvertNotBefore(Setting(parsed, NotBeforeKey, "false").value, isoParse)
  {
    NormalisedWord("false");
    var text :- Setting(parsed, NotBeforeKey, "false");
    if text != "false" && text != "" then ConvertNotBefore(text, isoParse) else Ok(Unset(text))
  }

  /** A list or dict item, which set() cannot hash. */
  predicate IsUnhashable(v: Json) {
    v.JList? || v.JDict?
  }

  /** The TypeError set(items) raises at its first unhashable item, if any. */
  function Unhashable(items: seq<Json>): (r: Option<Exc>)
    ensures r.None? <==> forall i :: 0 <= i < |items| ==> !IsUnhashable(items[i])
    ensures r.Some? ==> exists i :: 0 <= i < |items| && IsUnhashable(items[i])
                                    && (forall j :: 0 <= j < i ==> !IsUnhashable(items[j]))
                                    && r.value == Builtin("unhashable type: '" + TypeName(items[i]) + "'")
  {
    if items == [] then None
    else if IsUnhashable(items[0]) then Some(Builtin("unhashable type: '" + TypeName(items[0]) + "'"))
    else
      var rest := Unhashable(items[1..]);
      assert forall i :: 1 <= i < |items| ==> items[i] == items[1..][i - 1];
      rest
  }

  /**
   * The topic names of a list of hashable items. A non-string item fails
   * here with the TypeError the search loop raises when it prefixes it.
   */
  function HashableTopics(items: seq<Json>): (r: Try<set<string>>)
    ensures r.Ok? <==> forall i :: 0 <= i < |items| ==> items[i].JStr?
    ensures r.Ok? ==> forall t :: t in r.value <==> JStr(t) in items
    ensures r.Fail? ==> r.exc.Builtin?
  {
    if items == [] then Ok({})
    else match items[0]
      case JStr(s) =>
        var rest :- HashableTopics(items[1..]);
        assert forall t :: JStr(t) in items <==> t == s || JStr(t) in items[1..];
        Ok({s} + rest)
      case _ => Fail(Builtin("can only concatenate str (not \"" + TypeName(items[0]) + "\") to str"))
  }

  /**
   * set(items) over a list of topic names: set() itself refuses the first
   * unhashable item; a string is a topic name.
   */
  function ListTopics(items: seq<Json>): (r: Try<set<string>>)
    ensures r.Ok? <==> forall i :: 0 <= i < |items| ==> items[i].JStr?
    ensures r.Ok? ==> forall t :: t in r.value <==> JStr(t) in items
    ensures Unhashable(items).Some? ==> r == Fail(Unhashable(items).value)
    ensures r.Fail? ==> r.exc.Builtin?
  {
    match Unhashable(items)
    case Some(e) => Fail(e)
    case None => HashableTopics(items)
  }

  /** set(s) of a string: its characters, each a one-letter topic name. */
  function Chars(s: string): (r: set<string>)
    ensures s == "" ==> r == {}
    ensures forall i :: 0 <= i < |s| ==> [s[i]] in r
    ensures forall t :: t in r ==> |t| == 1
  {
    set i | 0 <= i < |s| :: [s[i]]
  }

  /** set(v) for a truthy explicit topic list: a string gives its characters, a dict its keys. */
  function ExplicitTopics(parsed: map<string, Json>, key: string): (r: Try<set<string>>)
    ensures !(key in parsed && Truthy(parsed[key])) ==> r == Ok({})
    ensures key in parsed && parsed[key].JDict? ==> r == Ok(parsed[key].entries.Keys)
    ensures key in parsed && parsed[key].JList? ==> r == ListTopics(parsed[key].items)
    ensures key in parsed && parsed[key].JStr? ==>
              r == Ok(Chars(parsed[key].s))
    ensures key in parsed && Truthy(parsed[key]) && !(parsed[key].JStr? || parsed[key].JDict? || parsed[key].JList?) ==>
              r == Fail(Builtin("'" + TypeName(parsed[key]) + "' object is not iterable"))
    ensures r.Fail? ==> r.exc.Builtin?
  {
    var raw := Get(parsed, key, JNull);
    if !Truthy(raw) then
      assert raw.JDict? ==> raw.entries.Keys == {} by {
        if raw.JDict? {
          assert raw.entries == map[];
        }
      }
      Ok({})
    else match raw
      case JStr(s) => Ok(Chars(s))
      case JDict(d) => Ok(d.Keys)
      case JList(items) => ListTopics(items)
      case _ => Fail(Builtin("'" + TypeName(raw) + "' object is not iterable"))
  }

  /** The configured topic names that occur as a key or as a value of the request. */
  function Mentioned(parsed: map<string, Json>, names: set<string>): (r: set<string>)
    ensures r <= names
    ensures forall n :: n in r <==> n in names && (n in parsed || JStr(n) in parsed.Values)
  {
    set n | n in names && (n in parsed || JStr(n) in parsed.Values)
  }

  /**
   * The loop that adds every configured name found as a key or a value of
   * the request to a topic set. The set of names is walked in no
   * particular order; the outcome is the same for every order.
   */
  method AddMentioned(parsed: map<string, Json>, names: set<string>, topics: set<string>)
    returns (r: set<string>)
    ensures r == topics + Mentioned(parsed, names)
  {
    r := topics;
    var pending, done := names, {};
    while pending != {}
      invariant done + pending == names
      invariant r == topics + Mentioned(parsed, done)
      decreases |pending|
    {
      var n :| n in pending;
      MentionedStep(parsed, done, n);
      if JStr(n) in parsed.Values || n in parsed {
        r := r + {n};
      }
      done, pending := done + {n}, pending - {n};
    }
    assert done == names;
  }

  /** One more configured name either joins the mentioned names or leaves them alone. */
  lemma MentionedStep(parsed: map<string, Json>, done: set<string>, n: string)
    ensures JStr(n) in parsed.Values || n in parsed ==> Mentioned(parsed, done + {n}) == Mentioned(parsed, done) + {n}
    ensures !(JStr(n) in parsed.Values || n in parsed) ==> Mentioned(parsed, done + {n}) == Mentioned(parsed, done)
  {
  }

  /**
   * The two topic sets: explicit list plus mentioned configured names,
   * then other_topic (unless 'none') added to the Avro set when it is a
   * configured Avro topic and to the JSON set otherwise.
   */
  function TopicsOf(parsed: map<string, Json>, config: Config, other: string)
    : (r: Try<(set<string>, set<string>)>)
    ensures r.Ok? <==> ExplicitTopics(parsed, JsonTopicsKey).Ok? && ExplicitTopics(parsed, AvroTopicsKey).Ok?
    ensures r.Ok? ==> forall t :: t in r.value.0 <==>
      || t in ExplicitTopics(parsed, JsonTopicsKey).value
      || (t in config.jsonTopics && (t in parsed || JStr(t) in parsed.Values))
      || (t == other && other != "none" && other !in config.avroTopics)
    ensures r.Ok? ==> forall t :: t in r.value.1 <==>
      || t in ExplicitTopics(parsed, AvroTopicsKey).value
      || (t in config.avroTopics && (t in parsed || JStr(t) in parsed.Values))
      || (t == other && other != "none" && other in config.avroTopics)
    ensures r.Fail? ==> r.exc.Builtin?
  {
    var json0 :- ExplicitTopics(parsed, JsonTopicsKey);
    var json1 := json0 + Mentioned(parsed, config.jsonTopics);
    var avro0 :- ExplicitTopics(parsed, AvroTopicsKey);
    var avro1 := avro0 + Mentioned(parsed, config.avroTopics);
    if other == "none" then Ok((json1, avro1))
    else if other in config.avroTopics then Ok((json1, avro1 + {other}))
    else Ok((json1 + {other}, avro1))
  }

  /** The scalar parameters, read in the order the source reads them. */
  function ScalarsOf(parsed: map<string, Json>, config: Config, isoParse: string -> Attempt<int>)
    : (r: Try<Params>)
    ensures r.Ok? ==> SearchOf(parsed) == Ok(r.value.search)
    ensures r.Ok? ==> Setting(parsed, EnvironmentKey, config.defaultEnvironment) == Ok(r.value.environment)
    ensures r.Ok? ==> Setting(parsed, IncludeMetadataKey, config.defaultIncludeMetadata) == Ok(r.value.includeMetadata)
    ensures r.Ok? ==> Setting(parsed, DelimiterKey, config.defaultDelimiter) == Ok(r.value.delimiter)
    ensures r.Ok? ==> Setting(parsed, OtherTopicKey, "none") == Ok(r.value.otherTopic)
    ensures r.Ok? ==> SearchCountOf(parsed) == Ok(r.value.searchCount)
    ensures r.Ok? ==> NotBeforeOf(parsed, isoParse) == Ok(r.value.notBefore)
    ensures r.Ok? ==> r.value.jsonTopics == {} && r.value.avroTopics == {}
    ensures r.Fail? ==>
      || SearchOf(parsed).Fail?
      || Setting(parsed, EnvironmentKey, config.defaultEnvironment).Fail?
      || Setting(parsed, IncludeMetadataKey, config.defaultIncludeMetadata).Fail?
      || Setting(parsed, DelimiterKey, config.defaultDelimiter).Fail?
      || Setting(parsed, OtherTopicKey, "none").Fail?
      || SearchCountOf(parsed).Fail?
      || NotBeforeOf(parsed, isoParse).Fail?
  {
    var search :- SearchOf(parsed);
    var environment :- Setting(parsed, EnvironmentKey, config.defaultEnvironment);
    var meta :- Setting(parsed, IncludeMetadataKey, config.defaultIncludeMetadata);
    var delimiter :- Setting(parsed, DelimiterKey, config.defaultDelimiter);
    var other :- Setting(parsed, OtherTopicKey, "none");
    var count :- SearchCountOf(parsed);
    var notBefore :- NotBeforeOf(parsed, isoParse);
    Ok(Params(search, environment, meta, delimiter, other, count, notBefore, {}, {}))
  }

  /** __build_params */
  function BuildParams(parsed: map<string, Json>, config: Config, isoParse: string -> Attempt<int>)
    : (r: Try<Params>)
    ensures r.Ok? <==> ScalarsOf(parsed, config, isoParse).Ok?
                       && TopicsOf(parsed, config, ScalarsOf(parsed, config, isoParse).value.otherTopic).Ok?
    ensures r.Ok? ==> var s := ScalarsOf(parsed, config, isoParse).value;
      r.value == s.(jsonTopics := TopicsOf(parsed, config, s.otherTopic).value.0,
                    avroTopics := TopicsOf(parsed, config, s.otherTopic).value.1)
    ensures ScalarsOf(parsed, config, isoParse).Fail? ==> r == ScalarsOf(parsed, config, isoParse)
  {
    var s :- ScalarsOf(parsed, config, isoParse);
    var topics :- TopicsOf(parsed, config, s.otherTopic);
    Ok(s.(jsonTopics := topics.0, avroTopics := topics.1))
  }

  /**
   * RequestLogger.log_request serialises the params with json.dumps before
   * handing them to the logger, which a parsed notBefore instant cannot pass.
   */
  function LogRequest(p: Params): (r: Try<Params>)
    ensures r.Ok? <==> p.notBefore.Unset?
    ensures r.Ok? ==> r.value == p
    ensures r.Fail? ==> r.exc == DatetimeNotSerializable
  {
    if p.notBefore.At? then Fail(DatetimeNotSerializable) else Ok(p)
  }

  /** __validate_params: a search string is required, then at least one topic. */
  function Validate(p: Params): (r: Try<Params>)
    ensures r.Ok? <==> p.search.Some? && p.search.value != "" && (p.jsonTopics != {} || p.avroTopics != {})
    ensures r.Ok? ==> r.value == p
    ensures r.Fail? && (p.search.None? || p.search.value == "") ==> r.exc == ErrorHandler(MissingSearchMessage)
    ensures r.Fail? && p.search.Some? && p.search.value != "" ==> r.exc == ErrorHandler(NoTopicsMessage)
  {
    if p.search.None? || p.search.value == "" then Fail(ErrorHandler(MissingSearchMessage))
    else if p.jsonTopics == {} && p.avroTopics == {} then Fail(ErrorHandler(NoTopicsMessage))
    else Ok(p)
  }

  /** The part of process_request before the search: parse, build, log, validate. */
  function Resolve(req: Incoming, config: Config, isoParse: string -> Attempt<int>): (r: Try<Params>)
    ensures r.Ok? ==> r.value.search.Some? && r.value.search.value != ""
    ensures r.Ok? ==> r.value.jsonTopics != {} || r.value.avroTopics != {}
    ensures r.Ok? ==> r.value.notBefore.Unset?
    ensures r.Ok? ==> ParseIncoming(req).Ok? && BuildParams(ParseIncoming(req).value, config, isoParse) == Ok(r.value)
    ensures ParseIncoming(req).Fail? ==> r == Fail(ParseIncoming(req).exc)
    ensures ParseIncoming(req).Ok? && BuildParams(ParseIncoming(req).value, config, isoParse).Fail? ==>
              r == BuildParams(ParseIncoming(req).value, config, isoParse)
    ensures ParseIncoming(req).Ok? && BuildParams(ParseIncoming(req).value, config, isoParse).Ok? ==>
              var p := BuildParams(ParseIncoming(req).value, config, isoParse).value;
              r == if p.notBefore.At? then Fail(DatetimeNotSerializable) else Validate(p)
  {
    var parsed :- ParseIncoming(req);
    var built :- BuildParams(parsed, config, isoParse);
    var logged :- LogRequest(built);
    Validate(logged)
  }

  // ---- properties of the parameters ----

  /**
   * A search string of whitespace only is truthy, so it is normalised to
   * "" rather than None, and validation then rejects it as missing.
   */
  lemma BlankSearchRejected(parsed: map<string, Json>, config: Config, isoParse: string -> Attempt<int>, w: string)
    requires SearchKey in parsed && parsed[SearchKey] == JStr(w) && w != "" && AllSpace(w)
    requires BuildParams(parsed, config, isoParse).Ok?
    ensures BuildParams(parsed, config, isoParse).value.search == Some("")
    ensures Validate(BuildParams(parsed, config, isoParse).value) == Fail(ErrorHandler(MissingSearchMessage))
  {
    LowerOfStripped(w);
  }

  /** A present search string comes out trimmed, lower-cased and without padding. */
  lemma SearchNormalised(parsed: map<string, Json>, config: Config, isoParse: string -> Attempt<int>)
    requires BuildParams(parsed, config, isoParse).Ok?
    ensures var s := BuildParams(parsed, config, isoParse).value.search;
      && (s.None? <==> !(SearchKey in parsed && Truthy(parsed[SearchKey])))
      && (s.Some? ==> IsLowered(s.value))
      && (s.Some? ==> Unpadded(s.value))
  {
    BuiltSearch(parsed, config, isoParse);
    SearchOfNormalised(parsed);
  }

  /** The built search string is the one SearchOf reads. */
  lemma BuiltSearch(parsed: map<string, Json>, config: Config, isoParse: string -> Attempt<int>)
    requires BuildParams(parsed, config, isoParse).Ok?
    ensures SearchOf(parsed) == Ok(BuildParams(parsed, config, isoParse).value.search)
  {
    var s := ScalarsOf(parsed, config, isoParse).value;
    assert BuildParams(parsed, config, isoParse).value.search == s.search;
  }

  lemma SearchOfNormalised(parsed: map<string, Json>)
    requires SearchOf(parsed).Ok?
    ensures var s := SearchOf(parsed).value;
      && (s.Some? ==> IsLowered(s.value))
      && (s.Some? ==> Unpadded(s.value))
  {
    if SearchOf(parsed).value.Some? {
      LowerOfStripped(parsed[SearchKey].s);
    }
  }

  /** A setting missing from the request takes its default, trimmed and lower-cased. */
  lemma DefaultsApplied(parsed: map<string, Json>, config: Config, isoParse: string -> Attempt<int>)
    requires BuildParams(parsed, config, isoParse).Ok?
    ensures var p := BuildParams(parsed, config, isoParse).value;
      && (EnvironmentKey !in parsed ==> p.environment == Lower(Strip(config.defaultEnvironment)))
      && (IncludeMetadataKey !in parsed ==> p.includeMetadata == Lower(Strip(config.defaultIncludeMetadata)))
      && (DelimiterKey !in parsed ==> p.delimiter == Lower(Strip(config.defaultDelimiter)))
      && (NotBeforeKey !in parsed ==> p.notBefore == Unset("false"))
  {
    var s := ScalarsOf(parsed, config, isoParse).value;
    var p := BuildParams(parsed, config, isoParse).value;
    assert p.environment == s.environment && p.includeMetadata == s.includeMetadata;
    assert p.delimiter == s.delimiter && p.notBefore == s.notBefore;
  }

  lemma OtherTopicAbsent(parsed: map<string, Json>)
    requires OtherTopicKey !in parsed
    ensures Setting(parsed, OtherTopicKey, "none") == Ok("none")
  {
    NormalisedWord("none");
  }

  /** An absent other_topic is 'none', which routes nothing. */
  lemma OtherTopicDefault(parsed: map<string, Json>, config: Config, isoParse: string -> Attempt<int>)
    requires BuildParams(parsed, config, isoParse).Ok?
    requires OtherTopicKey !in parsed
    ensures BuildParams(parsed, config, isoParse).value.otherTopic == "none"
  {
    OtherTopicAbsent(parsed);
    var s := ScalarsOf(parsed, config, isoParse).value;
    assert BuildParams(parsed, config, isoParse).value.otherTopic == s.otherTopic;
  }

  /**
   * other_topic routing: a value other than 'none' lands in the Avro set
   * when it is a configured Avro topic and in the JSON set otherwise.
   */
  lemma OtherTopicRouted(parsed: map<string, Json>, config: Config, isoParse: string -> Attempt<int>)
    requires BuildParams(parsed, config, isoParse).Ok?
    ensures var p := BuildParams(parsed, config, isoParse).value;
      p.otherTopic != "none" ==>
        (p.otherTopic in config.avroTopics ==> p.otherTopic in p.avroTopics)
        && (p.otherTopic !in config.avroTopics ==> p.otherTopic in p.jsonTopics)
  {
  }

  /** With other_topic 'none' the sets are just the explicit lists and the mentioned names. */
  lemma NoOtherTopic(parsed: map<string, Json>, config: Config, isoParse: string -> Attempt<int>)
    requires BuildParams(parsed, config, isoParse).Ok?
    requires BuildParams(parsed, config, isoParse).value.otherTopic == "none"
    ensures var p := BuildParams(parsed, config, isoParse).value;
      && p.jsonTopics == ExplicitTopics(parsed, JsonTopicsKey).value + Mentioned(parsed, config.jsonTopics)
      && p.avroTopics == ExplicitTopics(parsed, AvroTopicsKey).value + Mentioned(parsed, config.avroTopics)
  {
  }

  /**
   * An other_topic of blanks normalises to "", which is not 'none': the
   * empty topic name joins the JSON set and the request passes the topic
   * check with no real topic.
   */
  lemma BlankOtherTopicSearched(parsed: map<string, Json>, config: Config, isoParse: string -> Attempt<int>, w: string)
    requires OtherTopicKey in parsed && parsed[OtherTopicKey] == JStr(w) && AllSpace(w)
    requires "" !in config.avroTopics
    requires BuildParams(parsed, config, isoParse).Ok?
    ensures "" in BuildParams(parsed, config, isoParse).value.jsonTopics
  {
    LowerOfStripped(w);
  }

  /**
   * A notBefore other than 'false' or blank never reaches the search: it
   * either fails to parse or becomes a datetime the request log cannot
   * serialise.
   */
  lemma NotBeforeNeverSearches(req: Incoming, config: Config, isoParse: string -> Attempt<int>)
    requires ParseIncoming(req).Ok?
    requires var parsed := ParseIncoming(req).value;
      NotBeforeKey in parsed && parsed[NotBeforeKey].JStr?
      && Lower(Strip(parsed[NotBeforeKey].s)) != "false" && Lower(Strip(parsed[NotBeforeKey].s)) != ""
    ensures Resolve(req, config, isoParse).Fail?
  {
  }

  /** Validation fails for a request whose params lack a search string or any topic. */
  lemma ValidateRejects(p: Params)
    ensures Validate(p) == Fail(ErrorHandler(MissingSearchMessage)) <==> p.search.None? || p.search.value == ""
    ensures Validate(p) == Fail(ErrorHandler(NoTopicsMessage)) <==>
              p.search.Some? && p.search.value != "" && p.jsonTopics == {} && p.avroTopics == {}
  {
  }
}
